=== FILE: README.md ===
# autom8, modelled in Dafny

autom8 is a command-line tool. It keeps a list of feature tasks in `.autom8/tasks.json`. For each
pending task it creates git worktrees and starts a coding agent in each one. This project models
the decision logic of the tool as pure functions over immutable `Task` records. The logic covers:

- which worktrees `implement` plans, and what each one is named;
- what one unit of work does against its environment;
- how `feature` appends a task and how `delete` removes one;
- how `status` classifies a worktree;
- how `truncate` shortens a prompt for a listing.

Both versions of the tool are covered: the current `src/main.go` and the earlier `main.go`. In the
earlier one, `feature` has no parent task. The two versions share `readMultilineInput` and
`truncate`.

Module layout:

| file | module | contents |
|---|---|---|
| wrappers.dfy | Wrappers | `Option`, `Result` |
| seqs.dfy | Seqs | filtering and concatenating sequences; indexing a concatenation of equal-length blocks |
| text.dfy | Text | the Go `strings` and `fmt` behaviours the tool relies on, over byte strings: `%d`, `TrimRight` with a cut set, `TrimSpace`, `Join`, `Split`, `ReplaceAll` of one byte |
| tasks.dfy | Tasks | the `Task` record, id lookup, dependents, the well-formedness invariant of the list |
| lineinput.dfy | LineInput | `bufio.Reader.ReadString('\n')` over the complete input, and the line-collecting loop |
| feature.dfy | Feature | `feature`, current and earlier |
| delete.dfy | Delete | `delete` |
| planner.dfy | Planner | the plan of `implement` |
| implement.dfy | Implement | names, the agent prompt, and the commands of one unit against an oracle |
| branches.dfy | Branches | how the branches of one plan relate: base branches of dependent units, and uniqueness of names |
| display.dfy | Display | `truncate` |
| status.dfy | Status | `status` |

External effects are parameters:

- the task list is passed in, and the new list is returned;
- the id of a new task is a parameter, where the tool reads the clock;
- standard input is the complete text still to be read;
- the answers of git, `pgrep` and the agent launcher are an oracle value per unit or per worktree.

A plan is a sequence of units in the order the loops start them. The goroutines become per-unit
evaluations, each against its own oracle value; the ordering between a parent unit and the
children that branch from it is not modelled (see "Left out").

A parent that is not a pending independent task has no recorded suffixes. For such a parent the
source falls back to `-1 .. -n`, and the model keeps that fallback. The recorded suffixes are
also `-1 .. -n`, so the fallback changes nothing (`Planner.FallbackMatchesRecorded`). A
grandchild therefore starts from a branch `autom8/<parent>-<a>`. No unit of a dependent parent
creates that branch, because its units all carry two-part suffixes
(`Branches.ChainedParentBranchMissing`). In the tool, `git worktree add` fails for such a unit.

## Model

| member | source | states |
|---|---|---|
| Text.TrimRight | main.go:137 | trailing CR/LF are cut as a set of bytes: the result is the longest prefix not ending in one, and everything cut is in the set |
| Text.TrimSpace | src/main.go:259 | the result is the slice of the input left after the white space at both ends is cut: only white space stands before and after it, it is empty exactly when the input is blank, and otherwise it starts and ends with a non-space |
| Text.DecimalInjective | src/main.go:684 | two instance numbers print the same `%d` text only if they are equal |
| Tasks.FindIndex | src/main.go:552-559 | -1 exactly when no task has the id, otherwise the first index whose task has it |
| Tasks.Dependents | src/main.go:567-573 | empty exactly when no task names `id` as its parent; holds exactly the ids of the tasks that do |
| Tasks.DependentsAppend | src/main.go:569-573 | dependents are collected in list order: those of `a + b` are those of `a` followed by those of `b` |
| LineInput.ReadString | src/main.go:176 | the read part and the unread rest make up the input; EOF exactly when no newline is left; otherwise the part ends at the first newline |
| LineInput.CollectLines | main.go:131-143 | every collected line is non-empty, holds no newline and does not end in CR or LF |
| LineInput.ReadMultilineInput | main.go:128-146 | the read-trim-break loop returns the collected lines joined by newlines, and leaves unread what the collection leaves |
| LineInput.CollectLinesIsLeadingRun | main.go:131-143 | the collected lines are the newline-terminated records, trimmed, up to the first empty one |
| LineInput.CollectBlankStops | main.go:139-141 | an empty line ends the collection, and reading resumes right after it |
| LineInput.FragmentDiscarded | main.go:132-135 | text after the last newline never adds a line, since the loop breaks on the read error first |
| LineInput.MultilineInputSplits | main.go:145 | the joined text is empty exactly when no line was collected; splitting it at newlines gives the lines back |
| Feature.CreateTask | src/main.go:259-294 | a blank prompt fails; else a non-empty parent that names no task fails; else exactly one pending task with the given fields is appended and the earlier tasks are unchanged; it succeeds exactly when the prompt is not blank and the parent is empty or names a task |
| Feature.CreatePreservesWellFormed | src/main.go:270-294 | with a fresh id, the append keeps ids unique and every parent earlier in the list; the new task is not its own parent |
| Feature.GatherInput | src/main.go:216-257 | with `-p` the flags are used as given; interactively it aborts exactly on a blank prompt, the criteria are the next lines up to a blank one, and the parent is the trimmed line read after the criteria, without a newline |
| Feature.RunFeature | src/main.go:203-294 | an aborted input fails as a blank prompt; otherwise the outcome is that of creating the task from the gathered prompt, criteria and parent (blank prompt, unknown parent, or exactly that task appended); it succeeds exactly when input was gathered, its prompt is not blank and its parent is empty or names a task, and then one pending task with those fields is appended |
| Feature.DependencyFragmentKept | src/main.go:254-256 | a parent id typed without a final newline is still used |
| Feature.PromptFragmentLost | src/main.go:228-233 | a prompt typed without a final newline is lost, so the interactive command aborts |
| Feature.LegacyGatherInput | main.go:170-205 | with `-p` the prompt and criteria flags are used as given; the earlier snapshot asks for no parent; it aborts exactly on a blank interactive prompt, and otherwise takes the collected prompt and criteria |
| Feature.LegacyRunFeature | main.go:207-226 | the earlier snapshot fails exactly when the input is aborted or its prompt is blank, and then as a blank prompt; otherwise it appends one pending task with the gathered prompt and criteria and no parent, and keeps the earlier ones |
| Delete.DeleteTask | src/main.go:552-585 | an unknown id fails; a task that others depend on fails and lists every dependent in list order; otherwise the first task with the id is cut out and the others keep their order; it succeeds exactly when the id is present and no task names it as parent |
| Delete.DeleteRemovesOne | src/main.go:584-585 | the deletion removes exactly one occurrence of that task and keeps every other task (as a multiset) |
| Delete.DeletePreservesWellFormed | src/main.go:567-585 | deleting from a well-formed list keeps it well formed, and no task with the id remains |
| Planner.Clamp | src/main.go:600-602 | the instance count is at least one and at least the flag; it is the flag itself or one |
| Planner.InstanceSuffixInjective | src/main.go:684 | the suffixes `-i` of different instances differ |
| Planner.BuildSuffixes | src/main.go:700-703 | the loop fills the slice with `-1 .. -n`, in order |
| Planner.Recorded | src/main.go:677-693 | the map has a key exactly for each independent pending task, and maps it to `-1 .. -n` |
| Planner.FallbackMatchesRecorded | src/main.go:696-704 | recorded parent or fallback, a dependent task branches from the suffixes `-1 .. -n` |
| Planner.PendingMember | src/main.go:615-621 | a task is an independent (dependent) plan task exactly when it is in the list, pending, and has no (a) parent |
| Planner.PlanLength | src/main.go:663-665 | the plan has `n` units per independent task and `n * n` per dependent task, and the two groups together are the pending tasks |
| Planner.PlanIndependentAt | src/main.go:681-693 | instance `i + 1` of the `j`-th independent task is unit `j * n + i`, started from HEAD with suffix `-(i+1)` |
| Planner.PlanDependentAt | src/main.go:696-718 | child `i + 1` on parent instance `a + 1` of the `j`-th dependent task comes after all independent units, at `j * n * n + a * n + i`; it starts from `parent-(a+1)` with suffix `-(a+1)-(i+1)` |
| Planner.PlanSound | src/main.go:653-718 | every planned unit belongs to a pending task of the list and has the suffix and base of its kind |
| Planner.PlanComplete | src/main.go:653-718 | every such unit is planned |
| Planner.PlanMembers | src/main.go:615-718 | a unit is in the plan exactly when it is one of the instances of a pending task, as characterised by its kind |
| Implement.BranchName | src/main.go:738-739 | the branch is `autom8/` followed by the instance id |
| Implement.BaseBranch | src/main.go:746-755 | no base (HEAD) exactly when the base id is empty; otherwise `autom8/` followed by the base id |
| Implement.BaseInfo | src/main.go:779-782 | the reported base is the base branch, or "HEAD" when there is none |
| Implement.NamesDistinguishSuffixes | src/main.go:735-739 | for one task, instance id, branch and worktree path are equal exactly when the suffixes are |
| Implement.InstanceSuffixesDistinct | src/main.go:708 | two-part suffixes `-a-i` are equal exactly when both numbers are, and never equal a one-part suffix |
| Implement.BuildPrompt | src/main.go:761-768 | the loop builds the prompt, then the header and one `- c` line per criterion; the prompt is unchanged exactly when there are no criteria |
| Implement.BulletsSplit | src/main.go:765-767 | the criteria block reads back line by line: splitting it at newlines gives `- c` for each criterion, in order |
| Implement.Message | src/main.go:742-783 | every report line starts with the bracketed instance id |
| Implement.RunUnit | src/main.go:734-784 | an existing worktree is skipped with no command; otherwise the worktree is added first; a failed add stops there; the agent is started with the assembled prompt only after a successful add; each outcome holds under exactly its conditions, and a failed add or start carries the error git or the launcher gave |
| Implement.RunUnits | src/main.go:674-718 | one report per unit, in plan order, each the outcome of that unit against the answers given to it, and each tagged with the unit's instance id |
| Implement.RerunIssuesNothing | src/main.go:741-744 | when the worktree exists, nothing is run and the report says so |
| Branches.DependentStartsFromParentUnit | src/main.go:696-718 | a child of a pending independent parent starts from the branch of one of that parent's planned units |
| Branches.ChainedParentBranchMissing | src/main.go:697-704 | a child of a dependent parent never starts from the branch of any of the parent's planned units |
| Branches.PlanNamesDistinct | src/main.go:735-736 | with unique ids of the form `task-<stamp>`, two planned units share an instance id (so worktree and branch) only if they are the same unit |
| Branches.PlanUnitsDistinct | src/main.go:680-712 | with unique ids, the loops never start the same unit (task, base and suffix) at two positions of the plan |
| Branches.PlanPositionsDistinct | src/main.go:735-739 | with unique ids of the form `task-<stamp>`, the units at any two positions of the plan get different instance ids, branch names and worktree paths |
| Display.Truncate | src/main.go:786-792 | panics exactly when the string is too long and `maxLen < 3`; otherwise no newline and at most `maxLen` bytes; a string that fits comes back with newlines replaced; otherwise the first `maxLen - 3` replaced bytes, then "..." |
| Display.TruncateIdempotent | main.go:265-271 | truncating again to the same width changes nothing |
| Display.ListingNeverPanics | src/main.go:320 | at width 60 every prompt is listed without a panic, in at most 60 bytes |
| Status.HasChanges | src/main.go:374-376 | changes exactly when `git status --porcelain` succeeded and printed something besides white space |
| Status.TrimmedOr | src/main.go:379-392 | the fallback ("0" for the commit count, "unknown" for the branch) when git fails; otherwise the trimmed output, empty only if it was blank |
| Status.Classify | src/main.go:400-407 | running beats modified beats committed beats idle, each under exactly its condition |
| Status.AcceptHintIffFinished | src/main.go:422-425 | the accept hint is shown exactly for worktrees classified modified or committed |
| Status.StatusRow | src/main.go:370-425 | a row keeps the name; it shows changes and running exactly as probed; its commit count and branch are the trimmed probe outputs or their fallbacks; its state is the priority classification of those values; it has a hint exactly when modified or committed |
| Status.CountClassifies | src/main.go:379-407 | for every count `k` rev-list prints with its newline, the row shows exactly `k`'s digits, which read "0" only for zero; a clean worktree with no agent is idle exactly when `k` is zero and committed, with the accept hint, exactly when it is not |
| Status.Rows | src/main.go:365-368 | every row is that of a directory entry, and every directory entry has its row |
| Status.RowsCount | src/main.go:365-368 | one row per directory entry, so non-directories add nothing |
| Status.StatusViewAsWritten | src/main.go:345-363 | nothing to list when the directory is missing or empty; an error when it cannot be read; otherwise the header counts every entry |
| Status.StrayFileMiscounted | src/main.go:363-368 | one worktree and one stray file give the header "2" and one row |
| Status.StatusView | src/main.go:345-363 | the same views, with the header counting the rows listed |
| Status.StatusViewCountsDirectories | src/main.go:363-368 | the corrected header is the number of directories; it agrees with the one as written when every entry is a directory |

## Left out

- Git, the agent launcher, `pgrep`, and the file system are not modelled: their answers are oracle parameters (`Env`, `Probe`, `Dir`).
- `runAccept` is not modelled. It runs git commands and stops at the first failure, with two exceptions: uncommitted changes in the worktree are first staged and committed automatically, and a failed `git branch -d` at the end is only a warning, so the command still reports success.
- Loading and saving the JSON task file, creating `.autom8`, flag parsing, `printUsage`, and `os.Exit` codes are not modelled. The model works on the decoded list.
- `CreatedAt` and the clock are not modelled. A new task's id is a parameter. Collisions of time-based ids are not modelled; `Branches.PlanNamesDistinct` assumes unique ids instead.
- The listing text of `list` is not modelled, except the width-60 `truncate` of each prompt.
- The printed header and totals of `implement` are not modelled, beyond the unit count in `Planner.PlanLength`.
- Goroutines, the wait group, and the results channel are not modelled. Units are evaluated one after another in plan order, and the order of printed results is not modelled.
- Implement.WorktreePath: `filepath.Join` is modelled as `dir + "/" + name`, without path cleaning.
- Text.TrimSpace: only ASCII white space is trimmed. Strings are bytes here, so multi-byte Unicode spaces are not recognised.
- Status.StatusRow: `pgrep -f` matching and `os.Stat` errors other than "does not exist" are reduced to oracle answers.
- Status.Rows: states where the rows come from and that none is missing, not their order; the order is the definition's, directory order.
- Implement.Message: the contract states only the bracketed prefix; the rest of each line is its text as formatted.
- Implement.RunUnits: the answers given to a dependent unit are not tied to the outcome of its parent unit. In the tool the child's `git worktree add` from `autom8/<parent>-a` succeeds only if the parent unit's goroutine has already created that branch, and nothing orders the goroutines, so the child's outcome races with its parent's. The model leaves those answers free and does not model the scheduling.
- Planner.PlanLength: the unit counts are unbounded integers. In the tool they are Go `int`s, and `make(chan string, totalIndependent+totalDependent)` panics when the total overflows or is too large to allocate for a very large `-n`. Overflow and allocation failure are not modelled.
- Task status never changes after creation: nothing in the two files moves a task out of "pending", so the model has no status transitions.
- Display.ListingNeverPanics follows from `Truncate`'s contract alone. It records the fact at the width the listing uses.

## Findings

| source | as written | input that shows it | evidently intended | confidence | as-written member | corrected member |
|---|---|---|---|---|---|---|
| src/main.go:363-368 | the status header prints the number of directory entries, but only directories get a row | a worktrees directory holding one worktree and one stray file: header says 2, one row follows | the header counts the worktrees listed | not executed; medium | Status.StrayFileMiscounted | Status.StatusViewCountsDirectories |

=== FILE: branches.dfy ===
/**
 * How the branches of one `implement` run relate to each other: where a dependent unit's
 * base branch comes from, the case of a parent that is itself dependent, and why no two
 * units of the plan compete for one worktree when ids are the generated `task-<stamp>` ones.
 */
module Branches {
  import opened Wrappers
  import opened Text
  import opened Tasks
  import opened Planner
  import opened Implement
  import opened Seqs

  /**
   * A unit of a task whose parent is a pending independent task starts from the branch of a
   * unit of that parent in the same plan: child `-a-i` starts from the parent's instance `-a`.
   */
  lemma DependentStartsFromParentUnit(tasks: seq<Task>, numInstances: int, u: Unit, parent: Task)
    requires u in Plan(tasks, numInstances) && IsDependent(u.task)
    requires parent in tasks && parent.id == u.task.dependsOn && IsPending(parent) && IsIndependent(parent)
    ensures exists a ::
      && 1 <= a <= Clamp(numInstances)
      && Unit(parent, "", InstanceSuffix(a)) in Plan(tasks, numInstances)
      && BaseBranch(u) == Some(BranchName(Unit(parent, "", InstanceSuffix(a))))
  {
    var n := Clamp(numInstances);
    PlanMembers(tasks, numInstances, u);
    var a, i :| 1 <= a <= n && 1 <= i <= n && u.baseBranchID == u.task.dependsOn + InstanceSuffix(a)
      && u.suffix == InstanceSuffix(a) + InstanceSuffix(i);
    var v := Unit(parent, "", InstanceSuffix(a));
    assert IndependentInstance(v, n);
    PlanMembers(tasks, numInstances, v);
    BaseIsBranchOf(u, v);
  }

  /**
   * The fallback for a parent that is itself dependent: the child starts from the parent's
   * branch with a single suffix `-a`, but every unit of that parent has a two-part suffix
   * `-a'-i'`, so no unit of the parent creates the branch the child starts from.
   */
  lemma ChainedParentBranchMissing(tasks: seq<Task>, numInstances: int, u: Unit, v: Unit)
    requires u in Plan(tasks, numInstances) && IsDependent(u.task)
    requires v in Plan(tasks, numInstances) && v.task.id == u.task.dependsOn && IsDependent(v.task)
    ensures BaseBranch(u) != Some(BranchName(v))
  {
    PlanMembers(tasks, numInstances, u);
    PlanMembers(tasks, numInstances, v);
    ChainedBasesDiffer(u, v, Clamp(numInstances));
  }

  lemma ChainedBasesDiffer(u: Unit, v: Unit, n: nat)
    requires DependentInstance(u, n) && DependentInstance(v, n) && v.task.id == u.task.dependsOn
    ensures BaseBranch(u) != Some(BranchName(v))
  {
    var a, i :| 1 <= a <= n && 1 <= i <= n && u.baseBranchID == u.task.dependsOn + InstanceSuffix(a)
      && u.suffix == InstanceSuffix(a) + InstanceSuffix(i);
    var b, j :| 1 <= b <= n && 1 <= j <= n && v.baseBranchID == v.task.dependsOn + InstanceSuffix(b)
      && v.suffix == InstanceSuffix(b) + InstanceSuffix(j);
    BaseIsBranchOf(u, v);
    InstanceSuffixesDistinct(b, j, a, 0);
    if u.baseBranchID == InstanceName(v) {
      PrefixCancel(u.task.dependsOn, InstanceSuffix(a), InstanceSuffix(b) + InstanceSuffix(j));
    }
  }

  /** A unit starts from `v`'s branch exactly when its base id is `v`'s instance id. */
  lemma BaseIsBranchOf(u: Unit, v: Unit)
    ensures BaseBranch(u) == Some(BranchName(v)) <==> u.baseBranchID != "" && u.baseBranchID == InstanceName(v)
  {
    if BaseBranch(u) == Some(BranchName(v)) {
      assert u.baseBranchID == BranchName(v)[|BranchPrefix|..];
    }
  }

  lemma PrefixCancel(id: string, x: string, y: string)
    requires id + x == id + y
    ensures x == y
  {
    assert x == (id + x)[|id|..];
    assert y == (id + y)[|id|..];
  }

  // ---------------------------------------------------------------------------
  // Instance names are unique across the plan

  /** Every task carries an id the feature command generates. */
  ghost predicate GeneratedIds(tasks: seq<Task>) {
    forall k :: 0 <= k < |tasks| ==> exists stamp: nat :: tasks[k].id == TaskId(stamp)
  }

  lemma TaskLacksDash()
    ensures Lacks("task", '-')
  {
  }

  lemma TaskIdParts(stamp: nat)
    ensures TaskId(stamp) == "task" + ['-'] + Decimal(stamp)
  {
  }

  /** `task-<stamp>-<i>` splits at its dashes into three parts. */
  lemma IndependentNameSplit(stamp: nat, i: nat)
    ensures Split(TaskId(stamp) + InstanceSuffix(i), '-') == ["task", Decimal(stamp), Decimal(i)]
  {
    IndependentNameParts(stamp, i);
    DigitsLackDash(Decimal(stamp));
    DigitsLackDash(Decimal(i));
    TaskLacksDash();
    SplitThree("task", Decimal(stamp), Decimal(i), '-');
  }

  lemma IndependentNameParts(stamp: nat, i: nat)
    ensures TaskId(stamp) + InstanceSuffix(i) == "task" + ['-'] + (Decimal(stamp) + ['-'] + Decimal(i))
  {
    TaskIdParts(stamp);
    AppendAssoc(Decimal(stamp), ['-'], Decimal(i));
  }

  /** `task-<stamp>-<a>-<i>` splits at its dashes into four parts. */
  lemma DependentNameSplit(stamp: nat, a: nat, i: nat)
    ensures Split(TaskId(stamp) + (InstanceSuffix(a) + InstanceSuffix(i)), '-') ==
      ["task", Decimal(stamp), Decimal(a), Decimal(i)]
  {
    DependentNameParts(stamp, a, i);
    DigitsLackDash(Decimal(stamp));
    DigitsLackDash(Decimal(a));
    DigitsLackDash(Decimal(i));
    TaskLacksDash();
    SplitFour("task", Decimal(stamp), Decimal(a), Decimal(i), '-');
  }

  lemma DependentNameParts(stamp: nat, a: nat, i: nat)
    ensures TaskId(stamp) + (InstanceSuffix(a) + InstanceSuffix(i)) ==
      "task" + ['-'] + (Decimal(stamp) + ['-'] + (Decimal(a) + ['-'] + Decimal(i)))
  {
    TaskIdParts(stamp);
    AppendAssoc(Decimal(a), ['-'], Decimal(i));
    AppendAssoc(Decimal(stamp), ['-'], Decimal(a) + ['-'] + Decimal(i));
  }

  /** Two tasks of a list with unique ids that share an id are the same task. */
  lemma SameIdSameTask(tasks: seq<Task>, t: Task, t': Task)
    requires UniqueIds(tasks) && t in tasks && t' in tasks && t.id == t'.id
    ensures t == t'
  {
    var x :| 0 <= x < |tasks| && tasks[x] == t;
    var y :| 0 <= y < |tasks| && tasks[y] == t';
  }

  lemma GeneratedStamp(tasks: seq<Task>, t: Task) returns (stamp: nat)
    requires GeneratedIds(tasks) && t in tasks
    ensures t.id == TaskId(stamp)
  {
    var x :| 0 <= x < |tasks| && tasks[x] == t;
    stamp :| tasks[x].id == TaskId(stamp);
  }

  /**
   * With unique generated ids, two units of one plan that would use the same worktree
   * directory (and branch) are the same unit.
   */
  lemma PlanNamesDistinct(tasks: seq<Task>, numInstances: int, u: Unit, v: Unit)
    requires UniqueIds(tasks) && GeneratedIds(tasks)
    requires u in Plan(tasks, numInstances) && v in Plan(tasks, numInstances)
    ensures InstanceName(u) == InstanceName(v) <==> u == v
  {
    var n := Clamp(numInstances);
    PlanMembers(tasks, numInstances, u);
    PlanMembers(tasks, numInstances, v);
    var su := GeneratedStamp(tasks, u.task);
    var sv := GeneratedStamp(tasks, v.task);
    if IsIndependent(u.task) && IsIndependent(v.task) {
      IndependentNamesDistinct(tasks, n, u, v, su, sv);
    } else if IsDependent(u.task) && IsDependent(v.task) {
      DependentNamesDistinct(tasks, n, u, v, su, sv);
    } else if IsIndependent(u.task) {
      MixedNamesDiffer(n, u, v, su, sv);
    } else {
      MixedNamesDiffer(n, v, u, sv, su);
    }
  }

  lemma IndependentNamesDistinct(tasks: seq<Task>, n: nat, u: Unit, v: Unit, su: nat, sv: nat)
    requires UniqueIds(tasks) && u.task in tasks && v.task in tasks
    requires u.task.id == TaskId(su) && v.task.id == TaskId(sv)
    requires IndependentInstance(u, n) && IndependentInstance(v, n)
    ensures InstanceName(u) == InstanceName(v) ==> u == v
  {
    var i :| 1 <= i <= n && u.suffix == InstanceSuffix(i);
    var j :| 1 <= j <= n && v.suffix == InstanceSuffix(j);
    IndependentNameSplit(su, i);
    IndependentNameSplit(sv, j);
    if InstanceName(u) == InstanceName(v) {
      SameStampSameTask(tasks, u.task, v.task, su, sv);
      DecimalInjective(i, j);
    }
  }

  lemma DependentNamesDistinct(tasks: seq<Task>, n: nat, u: Unit, v: Unit, su: nat, sv: nat)
    requires UniqueIds(tasks) && u.task in tasks && v.task in tasks
    requires u.task.id == TaskId(su) && v.task.id == TaskId(sv)
    requires DependentInstance(u, n) && DependentInstance(v, n)
    ensures InstanceName(u) == InstanceName(v) ==> u == v
  {
    var a, i :| 1 <= a <= n && 1 <= i <= n && u.baseBranchID == u.task.dependsOn + InstanceSuffix(a)
      && u.suffix == InstanceSuffix(a) + InstanceSuffix(i);
    var b, j :| 1 <= b <= n && 1 <= j <= n && v.baseBranchID == v.task.dependsOn + InstanceSuffix(b)
      && v.suffix == InstanceSuffix(b) + InstanceSuffix(j);
    DependentNameSplit(su, a, i);
    DependentNameSplit(sv, b, j);
    if InstanceName(u) == InstanceName(v) {
      SameStampSameTask(tasks, u.task, v.task, su, sv);
      DecimalInjective(a, b);
      DecimalInjective(i, j);
    }
  }

  /** A name with one instance suffix never equals a name with two. */
  lemma MixedNamesDiffer(n: nat, u: Unit, v: Unit, su: nat, sv: nat)
    requires u.task.id == TaskId(su) && v.task.id == TaskId(sv)
    requires IndependentInstance(u, n) && DependentInstance(v, n)
    ensures InstanceName(u) != InstanceName(v)
  {
    var i :| 1 <= i <= n && u.suffix == InstanceSuffix(i);
    var b, j :| 1 <= b <= n && 1 <= j <= n && v.baseBranchID == v.task.dependsOn + InstanceSuffix(b)
      && v.suffix == InstanceSuffix(b) + InstanceSuffix(j);
    IndependentNameSplit(su, i);
    DependentNameSplit(sv, b, j);
  }

  lemma SameStampSameTask(tasks: seq<Task>, t: Task, t': Task, s: nat, s': nat)
    requires UniqueIds(tasks) && t in tasks && t' in tasks
    requires t.id == TaskId(s) && t'.id == TaskId(s') && Decimal(s) == Decimal(s')
    ensures t == t'
  {
    SameIdSameTask(tasks, t, t');
  }

  // ---------------------------------------------------------------------------
  // No position of the plan repeats a unit, a name or a worktree

  /**
   * With unique generated ids, the units at two different positions of the plan get
   * different instance ids, so different branches and worktree directories.
   */
  lemma PlanPositionsDistinct(tasks: seq<Task>, numInstances: int, worktreesDir: string, k: int, k': int)
    requires UniqueIds(tasks) && GeneratedIds(tasks)
    requires 0 <= k < k' < |Plan(tasks, numInstances)|
    ensures InstanceName(Plan(tasks, numInstances)[k]) != InstanceName(Plan(tasks, numInstances)[k'])
    ensures BranchName(Plan(tasks, numInstances)[k]) != BranchName(Plan(tasks, numInstances)[k'])
    ensures WorktreePath(worktreesDir, Plan(tasks, numInstances)[k]) != WorktreePath(worktreesDir, Plan(tasks, numInstances)[k'])
  {
    var u, v := Plan(tasks, numInstances)[k], Plan(tasks, numInstances)[k'];
    PlanUnitsDistinct(tasks, numInstances, k, k');
    PlanNamesDistinct(tasks, numInstances, u, v);
    if WorktreePath(worktreesDir, u) == WorktreePath(worktreesDir, v) {
      PrefixCancel(worktreesDir + "/", InstanceName(u), InstanceName(v));
    }
  }

  /** With unique ids, the plan never holds one unit at two positions. */
  lemma PlanUnitsDistinct(tasks: seq<Task>, numInstances: int, k: int, k': int)
    requires UniqueIds(tasks)
    requires 0 <= k < k' < |Plan(tasks, numInstances)|
    ensures Plan(tasks, numInstances)[k] != Plan(tasks, numInstances)[k']
  {
    var n := Clamp(numInstances);
    var indep, dep := IndependentTasks(tasks), DependentTasks(tasks);
    PendingDistinct(tasks);
    UnitsDistinct(indep, dep, Recorded(indep, n), n, k, k');
  }

  /** The independent units followed by the dependent ones, for tasks that do not repeat. */
  lemma UnitsDistinct(indep: seq<Task>, dep: seq<Task>, m: map<string, seq<string>>, n: nat, k: int, k': int)
    requires Distinct(indep) && Distinct(dep) && RecordsSuffixes(m, n)
    requires forall j :: 0 <= j < |indep| ==> IsIndependent(indep[j])
    requires forall j :: 0 <= j < |dep| ==> IsDependent(dep[j])
    requires 0 <= k < k' < |IndependentUnits(indep, n) + DependentUnits(dep, m, n)|
    ensures (IndependentUnits(indep, n) + DependentUnits(dep, m, n))[k] != (IndependentUnits(indep, n) + DependentUnits(dep, m, n))[k']
  {
    var iu, du := IndependentUnits(indep, n), DependentUnits(dep, m, n);
    if k' < |iu| {
      IndependentUnitsDistinct(indep, n, k, k');
    } else if |iu| <= k {
      DependentUnitsDistinct(dep, m, n, k - |iu|, k' - |iu|);
    } else {
      var j, i := IndependentUnitOf(indep, n, k);
      var j', a, i' := DependentUnitOf(dep, m, n, k' - |iu|);
    }
  }

  /** The pending tasks of each kind, taken from a list with unique ids, do not repeat. */
  lemma PendingDistinct(tasks: seq<Task>)
    requires UniqueIds(tasks)
    ensures Distinct(IndependentTasks(tasks)) && Distinct(DependentTasks(tasks))
  {
    assert Distinct(tasks);
    FilterDistinct(tasks, IsPending);
    FilterDistinct(PendingTasks(tasks), IsIndependent);
    FilterDistinct(PendingTasks(tasks), IsDependent);
  }

  lemma IndependentUnitsDistinct(indep: seq<Task>, n: nat, k: int, k': int)
    requires Distinct(indep) && 0 <= k < k' < |IndependentUnits(indep, n)|
    ensures IndependentUnits(indep, n)[k] != IndependentUnits(indep, n)[k']
  {
    var j, i := IndependentUnitOf(indep, n, k);
    var j', i' := IndependentUnitOf(indep, n, k');
    InstanceSuffixInjective(i + 1, i' + 1);
  }

  lemma DependentUnitsDistinct(dep: seq<Task>, m: map<string, seq<string>>, n: nat, k: int, k': int)
    requires RecordsSuffixes(m, n) && Distinct(dep) && 0 <= k < k' < |DependentUnits(dep, m, n)|
    ensures DependentUnits(dep, m, n)[k] != DependentUnits(dep, m, n)[k']
  {
    var j, a, i := DependentUnitOf(dep, m, n, k);
    var j', a', i' := DependentUnitOf(dep, m, n, k');
    DependentCoordinates(dep, j, a, i, j', a', i', DependentUnits(dep, m, n)[k], DependentUnits(dep, m, n)[k']);
    if j == j' && a == a' && i == i' {
      SameOffset(k, k', j * (n * n), j' * (n * n), a * n + i, a' * n + i');
    }
  }

  /** A dependent unit names its task, its parent instance and its own instance. */
  lemma DependentCoordinates(dep: seq<Task>, j: int, a: int, i: int, j': int, a': int, i': int, u: Unit, v: Unit)
    requires Distinct(dep) && 0 <= j < |dep| && 0 <= j' < |dep| && 0 <= a && 0 <= i && 0 <= a' && 0 <= i'
    requires u == Unit(dep[j], dep[j].dependsOn + InstanceSuffix(a + 1), InstanceSuffix(a + 1) + InstanceSuffix(i + 1))
    requires v == Unit(dep[j'], dep[j'].dependsOn + InstanceSuffix(a' + 1), InstanceSuffix(a' + 1) + InstanceSuffix(i' + 1))
    ensures u == v ==> j == j' && a == a' && i == i'
  {
    InstanceSuffixesDistinct(a + 1, i + 1, a' + 1, i' + 1);
  }

  /** Offsets built from equal parts are equal (kept apart from the products that name the parts). */
  lemma SameOffset(k: int, k': int, x: int, x': int, y: int, y': int)
    requires k == x + y && k' == x' + y' && x == x' && y == y'
    ensures k == k'
  {
  }
}

=== FILE: delete.dfy ===
/** The `delete` command: remove one task, unless it is unknown or other tasks depend on it. */
module Delete {
  import opened Wrappers
  import opened Tasks

  /** Why nothing was deleted; both exit with status 1 and leave the list as it was. */
  datatype DeleteError = NotFound(id: string) | HasDependents(id: string, dependents: seq<string>)

  /**
   * runDelete on a loaded list: an unknown id is an error; otherwise every task whose parent
   * is `id` is listed, in list order, and blocks the deletion; otherwise the first task with
   * that id is cut out and everything else keeps its order.
   */
  function DeleteTask(tasks: seq<Task>, id: string): (r: Result<seq<Task>, DeleteError>)
    ensures r == Failure(NotFound(id)) <==> !HasId(tasks, id)
    ensures r.Success? <==> HasId(tasks, id) && forall i :: 0 <= i < |tasks| ==> tasks[i].dependsOn != id
    ensures r.Failure? && r.error.HasDependents? <==>
      HasId(tasks, id) && exists i :: 0 <= i < |tasks| && tasks[i].dependsOn == id
    ensures r.Failure? && r.error.HasDependents? ==>
      r.error == HasDependents(id, Dependents(tasks, id)) && |r.error.dependents| > 0
    ensures r.Success? ==>
      && |r.value| == |tasks| - 1
      && (forall i :: 0 <= i < |tasks| ==> tasks[i].dependsOn != id)
      && exists k :: 0 <= k < |tasks| && tasks[k].id == id
           && (forall j :: 0 <= j < k ==> tasks[j].id != id)
           && r.value == tasks[..k] + tasks[k + 1..]
  {
    var k := FindIndex(tasks, id);
    if k < 0 then Failure(NotFound(id))
    else
      var dependents := Dependents(tasks, id);
      if |dependents| > 0 then Failure(HasDependents(id, dependents))
      else Success(tasks[..k] + tasks[k + 1..])
  }

  /** A successful delete removes exactly one occurrence of the deleted task and keeps every other one. */
  lemma DeleteRemovesOne(tasks: seq<Task>, id: string)
    requires DeleteTask(tasks, id).Success?
    ensures var k := FindIndex(tasks, id);
      multiset(DeleteTask(tasks, id).value) + multiset{tasks[k]} == multiset(tasks)
  {
    var k := FindIndex(tasks, id);
    var before, after := tasks[..k], tasks[k + 1..];
    SplitAround(tasks, k);
    assert multiset(tasks) == multiset(before) + multiset{tasks[k]} + multiset(after);
  }

  lemma SplitAround(s: seq<Task>, k: int)
    requires 0 <= k < |s|
    ensures s == s[..k] + [s[k]] + s[k + 1..]
  {
  }

  /** Where element `i` of the list without element `k` came from. */
  function Origin(i: int, k: int): int { if i < k then i else i + 1 }

  lemma RemovedAt(tasks: seq<Task>, k: int, r: seq<Task>)
    requires 0 <= k < |tasks| && r == tasks[..k] + tasks[k + 1..]
    ensures |r| == |tasks| - 1
    ensures forall i :: 0 <= i < |r| ==> r[i] == tasks[Origin(i, k)]
  {
  }

  /** On a well-formed list, a successful delete leaves a well-formed list that no longer mentions `id`. */
  lemma DeletePreservesWellFormed(tasks: seq<Task>, id: string)
    requires WellFormed(tasks)
    requires DeleteTask(tasks, id).Success?
    ensures WellFormed(DeleteTask(tasks, id).value)
    ensures !HasId(DeleteTask(tasks, id).value, id)
  {
    var k := FindIndex(tasks, id);
    var r := DeleteTask(tasks, id).value;
    RemovedAt(tasks, k, r);
    RemovalKeepsUnique(tasks, k, r);
    RemovalKeepsParents(tasks, id, k, r);
    forall i | 0 <= i < |r| ensures r[i].id != id {
      assert Origin(i, k) != k;
    }
  }

  lemma RemovalKeepsUnique(tasks: seq<Task>, k: int, r: seq<Task>)
    requires UniqueIds(tasks)
    requires 0 <= k < |tasks| && |r| == |tasks| - 1
    requires forall i :: 0 <= i < |r| ==> r[i] == tasks[Origin(i, k)]
    ensures UniqueIds(r)
  {
    forall i, j | 0 <= i < j < |r| ensures r[i].id != r[j].id {
      assert Origin(i, k) < Origin(j, k);
    }
  }

  lemma RemovalKeepsParents(tasks: seq<Task>, id: string, k: int, r: seq<Task>)
    requires ParentsEarlier(tasks) && UniqueIds(tasks)
    requires 0 <= k < |tasks| && tasks[k].id == id && |r| == |tasks| - 1
    requires forall i :: 0 <= i < |tasks| ==> tasks[i].dependsOn != id
    requires forall i :: 0 <= i < |r| ==> r[i] == tasks[Origin(i, k)]
    ensures ParentsEarlier(r)
  {
    forall i | 0 <= i < |r| && r[i].dependsOn != ""
      ensures exists j :: 0 <= j < i && r[j].id == r[i].dependsOn
    {
      var oi := Origin(i, k);
      var oj :| 0 <= oj < oi && tasks[oj].id == tasks[oi].dependsOn;
      assert oj != k;
      var j := if oj < k then oj else oj - 1;
      assert Origin(j, k) == oj;
      assert r[j] == tasks[oj];
    }
  }
}

=== FILE: display.dfy ===
/** The one-line rendering of a prompt in listings (`truncate`, the same in both versions of the tool). */
module Display {
  import opened Wrappers
  import opened Text

  /** The marker that ends a shortened string. */
  const Ellipsis: string := "..."

  /**
   * truncate(s, maxLen): line breaks become spaces; a string that fits is kept, a longer one
   * keeps its first `maxLen - 3` bytes followed by "...". With `maxLen < 3` a string that does
   * not fit makes the slice bound negative, which is a run-time panic: `None`.
   */
  function Truncate(s: string, maxLen: int): (r: Option<string>)
    ensures r.None? <==> |s| > maxLen && maxLen < 3
    ensures r.Some? ==> Lacks(r.value, '\n') && |r.value| <= maxLen
    ensures r.Some? && |s| <= maxLen ==> r.value == ReplaceByte(s, '\n', ' ')
    ensures r.Some? && |s| > maxLen ==>
      && |r.value| == maxLen
      && r.value[maxLen - 3..] == Ellipsis
      && r.value[..maxLen - 3] == ReplaceByte(s, '\n', ' ')[..maxLen - 3]
  {
    var flat := ReplaceByte(s, '\n', ' ');
    if |flat| <= maxLen then Some(flat)
    else if maxLen - 3 < 0 then None
    else
      var r := flat[..maxLen - 3] + Ellipsis;
      assert r[maxLen - 3..] == Ellipsis;
      Some(r)
  }

  /** Truncating a second time with the same width changes nothing. */
  lemma TruncateIdempotent(s: string, maxLen: int)
    requires Truncate(s, maxLen).Some?
    ensures Truncate(Truncate(s, maxLen).value, maxLen) == Truncate(s, maxLen)
  {
    var t := Truncate(s, maxLen).value;
    assert ReplaceByte(t, '\n', ' ') == t;
  }

  /** The width the task listing uses is at least three, so a listing line never panics. */
  const ListWidth: int := 60

  lemma ListingNeverPanics(prompt: string)
    ensures Truncate(prompt, ListWidth).Some?
    ensures |Truncate(prompt, ListWidth).value| <= ListWidth
  {
  }
}

=== FILE: feature.dfy ===
/**
 * The `feature` command: collect a prompt, verification criteria and an optional parent,
 * then append one pending task. Covers both the current command and the earlier snapshot,
 * which has no parent reference.
 */
module Feature {
  import opened Wrappers
  import opened Text
  import opened Tasks
  import opened LineInput
  import opened Seqs

  /** Why no task was appended. `BlankPrompt` is a plain abort; `UnknownDependency` exits with status 1. */
  datatype FeatureError = BlankPrompt | UnknownDependency(dependsOn: string)

  /**
   * The validation and append part of runFeature: a blank prompt aborts, a parent that names
   * no existing task is refused, otherwise one pending task goes at the end of the list.
   */
  function CreateTask(tasks: seq<Task>, id: string, prompt: string, criteria: seq<string>, dependsOn: string)
    : (r: Result<seq<Task>, FeatureError>)
    ensures r == Failure(BlankPrompt) <==> IsBlank(prompt)
    ensures r.Success? <==> !IsBlank(prompt) && (dependsOn == "" || HasId(tasks, dependsOn))
    ensures r == Failure(UnknownDependency(dependsOn)) <==>
      !IsBlank(prompt) && dependsOn != "" && !HasId(tasks, dependsOn)
    ensures r.Success? ==>
      && |r.value| == |tasks| + 1
      && r.value[..|tasks|] == tasks
      && r.value[|tasks|] == Task(id, prompt, criteria, dependsOn, Pending)
  {
    if TrimSpace(prompt) == "" then Failure(BlankPrompt)
    else if dependsOn != "" && FindIndex(tasks, dependsOn) < 0 then Failure(UnknownDependency(dependsOn))
    else Success(tasks + [Task(id, prompt, criteria, dependsOn, Pending)])
  }

  /** Creating a task with a fresh, non-empty id keeps the list well formed; in particular the new task is not its own parent. */
  lemma CreatePreservesWellFormed(tasks: seq<Task>, id: string, prompt: string, criteria: seq<string>, dependsOn: string)
    requires WellFormed(tasks)
    requires id != "" && !HasId(tasks, id)
    requires CreateTask(tasks, id, prompt, criteria, dependsOn).Success?
    ensures WellFormed(CreateTask(tasks, id, prompt, criteria, dependsOn).value)
    ensures dependsOn != id
  {
    var t := Task(id, prompt, criteria, dependsOn, Pending);
    AppendKeepsUnique(tasks, t);
    AppendKeepsParents(tasks, t);
  }

  lemma AppendKeepsUnique(tasks: seq<Task>, t: Task)
    requires UniqueIds(tasks) && t.id != "" && !HasId(tasks, t.id)
    ensures UniqueIds(tasks + [t])
  {
    var r := tasks + [t];
    forall i, j | 0 <= i < j < |r| ensures r[i].id != r[j].id {
      assert r[i] == tasks[i];
    }
  }

  lemma AppendKeepsParents(tasks: seq<Task>, t: Task)
    requires ParentsEarlier(tasks)
    requires t.dependsOn == "" || HasId(tasks, t.dependsOn)
    ensures ParentsEarlier(tasks + [t])
  {
    var r := tasks + [t];
    forall i | 0 <= i < |r| && r[i].dependsOn != ""
      ensures exists j :: 0 <= j < i && r[j].id == r[i].dependsOn
    {
      if i < |tasks| {
        var j :| 0 <= j < i && tasks[j].id == tasks[i].dependsOn;
        assert r[j] == tasks[j];
      } else {
        var j :| 0 <= j < |tasks| && tasks[j].id == t.dependsOn;
        assert r[j] == tasks[j];
      }
    }
  }

  /** What the user supplied: from flags when `-p` is given, otherwise read from standard input. */
  datatype FeatureInput = FeatureInput(prompt: string, criteria: seq<string>, dependsOn: string)

  /**
   * The input-gathering half of runFeature. `None` is the interactive "No prompt entered"
   * abort. Interactively, the prompt is the lines up to the first blank line, the criteria
   * are the following lines up to the next blank line, and the parent is one more line,
   * trimmed; unlike the other two, that last read keeps a fragment cut off by end of input.
   */
  function GatherInput(promptFlag: string, criteriaFlags: seq<string>, dependsFlag: string, stdin: string)
    : (r: Option<FeatureInput>)
    ensures promptFlag != "" ==> r == Some(FeatureInput(promptFlag, criteriaFlags, dependsFlag))
    ensures promptFlag == "" ==> (r.None? <==> IsBlank(MultilineInput(stdin).0))
    ensures promptFlag == "" && r.Some? ==>
      && r.value.prompt == MultilineInput(stdin).0
      && r.value.criteria == CollectLines(MultilineInput(stdin).1).0
      && (forall i :: 0 <= i < |r.value.criteria| ==> r.value.criteria[i] != "")
      && r.value.dependsOn == TrimSpace(ReadString(CollectLines(MultilineInput(stdin).1).1).data)
      && Lacks(r.value.dependsOn, '\n')
  {
    if promptFlag != "" then Some(FeatureInput(promptFlag, criteriaFlags, dependsFlag))
    else
      var (prompt, afterPrompt) := MultilineInput(stdin);
      if TrimSpace(prompt) == "" then None
      else
        var (criteria, afterCriteria) := CollectLines(afterPrompt);
        var depLine := ReadString(afterCriteria).data;
        var dep := TrimSpace(depLine);
        DependencyLineHasNoNewline(depLine, dep);
        Some(FeatureInput(prompt, criteria, dep))
  }

  lemma DependencyLineHasNoNewline(line: string, trimmed: string)
    requires trimmed == TrimSpace(line)
    requires forall i :: 0 <= i < |line| - 1 ==> line[i] != '\n'
    ensures Lacks(trimmed, '\n')
  {
    TrimSpaceDropsLast(line, '\n');
  }

  /** The whole feature command on the current list: gather the input, then validate and append. */
  function RunFeature(tasks: seq<Task>, id: string, promptFlag: string, criteriaFlags: seq<string>,
                      dependsFlag: string, stdin: string): (r: Result<seq<Task>, FeatureError>)
    ensures GatherInput(promptFlag, criteriaFlags, dependsFlag, stdin).None? ==> r == Failure(BlankPrompt)
    ensures GatherInput(promptFlag, criteriaFlags, dependsFlag, stdin).Some? ==>
      var g := GatherInput(promptFlag, criteriaFlags, dependsFlag, stdin).value;
      r == CreateTask(tasks, id, g.prompt, g.criteria, g.dependsOn)
    ensures r.Success? <==>
      var g := GatherInput(promptFlag, criteriaFlags, dependsFlag, stdin);
      g.Some? && !IsBlank(g.value.prompt) && (g.value.dependsOn == "" || HasId(tasks, g.value.dependsOn))
    ensures r.Success? ==>
      && |r.value| == |tasks| + 1
      && r.value[..|tasks|] == tasks
      && r.value[|tasks|].id == id
      && r.value[|tasks|].status == Pending
      && !IsBlank(r.value[|tasks|].prompt)
      && (r.value[|tasks|].dependsOn == "" || HasId(tasks, r.value[|tasks|].dependsOn))
  {
    match GatherInput(promptFlag, criteriaFlags, dependsFlag, stdin)
    case None => Failure(BlankPrompt)
    case Some(input) => CreateTask(tasks, id, input.prompt, input.criteria, input.dependsOn)
  }

  /** The earlier snapshot's input gathering: the same, but no parent is ever asked for. */
  function LegacyGatherInput(promptFlag: string, criteriaFlags: seq<string>, stdin: string)
    : (r: Option<FeatureInput>)
    ensures promptFlag != "" ==> r == Some(FeatureInput(promptFlag, criteriaFlags, ""))
    ensures r.Some? ==> r.value.dependsOn == ""
    ensures r.None? <==> promptFlag == "" && IsBlank(MultilineInput(stdin).0)
    ensures promptFlag == "" && r.Some? ==>
      r.value.prompt == MultilineInput(stdin).0 && r.value.criteria == CollectLines(MultilineInput(stdin).1).0
  {
    if promptFlag != "" then Some(FeatureInput(promptFlag, criteriaFlags, ""))
    else
      var (prompt, afterPrompt) := MultilineInput(stdin);
      if TrimSpace(prompt) == "" then None
      else Some(FeatureInput(prompt, CollectLines(afterPrompt).0, ""))
  }

  /**
   * The earlier snapshot's feature command. Its records have no parent field, which is the
   * same as the current record with an empty parent; so a dependency error cannot happen.
   */
  function LegacyRunFeature(tasks: seq<Task>, id: string, promptFlag: string, criteriaFlags: seq<string>, stdin: string)
    : (r: Result<seq<Task>, FeatureError>)
    ensures r.Failure? ==> r.error == BlankPrompt
    ensures var g := LegacyGatherInput(promptFlag, criteriaFlags, stdin);
      r.Failure? <==> g.None? || IsBlank(g.value.prompt)
    ensures r.Success? ==>
      var g := LegacyGatherInput(promptFlag, criteriaFlags, stdin).value;
      && |r.value| == |tasks| + 1
      && r.value[..|tasks|] == tasks
      && r.value[|tasks|] == Task(id, g.prompt, g.criteria, "", Pending)
      && !IsBlank(r.value[|tasks|].prompt)
  {
    match LegacyGatherInput(promptFlag, criteriaFlags, stdin)
    case None => Failure(BlankPrompt)
    case Some(input) => CreateTask(tasks, id, input.prompt, input.criteria, "")
  }

  /**
   * Interactive input "prompt, blank line, criterion, blank line, parent": the parent line is
   * used even when end of input cuts off its newline.
   */
  lemma DependencyFragmentKept(prompt: string, criterion: string, parent: string, criteriaFlags: seq<string>, dependsFlag: string)
    requires IsCollectedLine(prompt) && !IsBlank(prompt)
    requires IsCollectedLine(criterion)
    requires Lacks(parent, '\n')
    ensures GatherInput("", criteriaFlags, dependsFlag,
                        prompt + ['\n'] + (['\n'] + (criterion + ['\n'] + (['\n'] + parent)))) ==
      Some(FeatureInput(prompt, [criterion], TrimSpace(parent)))
  {
    var afterPrompt := criterion + ['\n'] + (['\n'] + parent);
    var stdin := prompt + ['\n'] + (['\n'] + afterPrompt);
    CollectTwoLines(prompt, afterPrompt);
    CollectTwoLines(criterion, parent);
    assert MultilineInput(stdin) == (prompt, afterPrompt);
    assert ReadString(parent).data == parent;
  }

  /** One line, a blank line, then anything: exactly that line is collected. */
  lemma CollectTwoLines(line: string, rest: string)
    requires IsCollectedLine(line)
    ensures CollectLines(line + ['\n'] + (['\n'] + rest)) == ([line], rest)
  {
    CollectBlankStops(rest);
    CollectLineThen(line, ['\n'] + rest);
    AppendEmpty([line]);
  }

  /** A prompt typed without a final newline is discarded, so the interactive command aborts. */
  lemma PromptFragmentLost(fragment: string, criteriaFlags: seq<string>, dependsFlag: string)
    requires Lacks(fragment, '\n')
    ensures GatherInput("", criteriaFlags, dependsFlag, fragment) == None
  {
    CollectFragmentStops(fragment);
  }
}

=== FILE: implement.dfy ===
/**
 * What happens to one planned unit (implementTaskWithSuffix): the names it derives, the
 * prompt handed to the agent, and the commands it issues against an environment whose
 * answers (does the path exist, does `git worktree add` fail, does the agent fail to start)
 * are given as an oracle.
 */
module Implement {
  import opened Wrappers
  import opened Seqs
  import opened Text
  import opened Tasks
  import opened Planner

  // ---------------------------------------------------------------------------
  // Names

  /** The branch namespace the tool owns. */
  const BranchPrefix: string := "autom8/"

  /** The instance id: task id followed by the suffix. Also the worktree directory name. */
  function InstanceName(u: Unit): string { u.task.id + u.suffix }

  function BranchName(u: Unit): (r: string)
    ensures |r| == |BranchPrefix| + |InstanceName(u)|
    ensures r[..|BranchPrefix|] == BranchPrefix && r[|BranchPrefix|..] == InstanceName(u)
  {
    BranchPrefix + InstanceName(u)
  }

  /** The worktree lives in a directory named after the instance. */
  function WorktreePath(worktreesDir: string, u: Unit): string { worktreesDir + "/" + InstanceName(u) }

  /** The branch the new branch starts from; `None` means the current HEAD. */
  function BaseBranch(u: Unit): (r: Option<string>)
    ensures r.None? <==> u.baseBranchID == ""
    ensures r.Some? ==>
      && |r.value| == |BranchPrefix| + |u.baseBranchID|
      && r.value[|BranchPrefix|..] == u.baseBranchID
      && r.value[..|BranchPrefix|] == BranchPrefix
  {
    if u.baseBranchID != "" then Some(BranchPrefix + u.baseBranchID) else None
  }

  /** How the base is reported: the base branch, or "HEAD". */
  function BaseInfo(u: Unit): (r: string)
    ensures BaseBranch(u).Some? ==> r == BaseBranch(u).value
    ensures BaseBranch(u).None? ==> r == "HEAD"
  {
    if u.baseBranchID != "" then BranchPrefix + u.baseBranchID else "HEAD"
  }

  /** For one task, the suffix alone decides the instance, branch and worktree names. */
  lemma NamesDistinguishSuffixes(worktreesDir: string, u: Unit, v: Unit)
    requires u.task.id == v.task.id
    ensures InstanceName(u) == InstanceName(v) <==> u.suffix == v.suffix
    ensures BranchName(u) == BranchName(v) <==> u.suffix == v.suffix
    ensures WorktreePath(worktreesDir, u) == WorktreePath(worktreesDir, v) <==> u.suffix == v.suffix
  {
    var id := u.task.id;
    var pre := worktreesDir + "/";
    if InstanceName(u) == InstanceName(v) {
      assert u.suffix == InstanceName(u)[|id|..];
      assert v.suffix == InstanceName(v)[|id|..];
    }
    if BranchName(u) == BranchName(v) {
      assert InstanceName(u) == BranchName(u)[|BranchPrefix|..];
    }
    if WorktreePath(worktreesDir, u) == WorktreePath(worktreesDir, v) {
      assert InstanceName(u) == WorktreePath(worktreesDir, u)[|pre|..];
      assert InstanceName(v) == WorktreePath(worktreesDir, v)[|pre|..];
    }
  }

  /** Two instances of one task in the plan get different suffixes, hence different names. */
  lemma InstanceSuffixesDistinct(a: nat, i: nat, b: nat, j: nat)
    ensures InstanceSuffix(a) + InstanceSuffix(i) == InstanceSuffix(b) + InstanceSuffix(j) <==> a == b && i == j
    ensures InstanceSuffix(a) + InstanceSuffix(i) != InstanceSuffix(b)
  {
    var s, t := InstanceSuffix(a) + InstanceSuffix(i), InstanceSuffix(b) + InstanceSuffix(j);
    if s == t {
      SuffixPairSplit(a, i);
      SuffixPairSplit(b, j);
      DecimalInjective(a, b);
      DecimalInjective(i, j);
    }
    SuffixPairSplit(a, i);
    SuffixSplit(b);
  }

  /** Splitting a suffix at its dashes gives an empty part, then the digits. */
  lemma SuffixSplit(i: nat)
    ensures Split(InstanceSuffix(i), '-') == ["", Decimal(i)]
  {
    DigitsLackDash(Decimal(i));
    SplitNone(Decimal(i), '-');
    SplitAfter("", '-', Decimal(i));
  }

  lemma SuffixPairSplit(a: nat, i: nat)
    ensures Split(InstanceSuffix(a) + InstanceSuffix(i), '-') == ["", Decimal(a), Decimal(i)]
  {
    var da, di := Decimal(a), Decimal(i);
    DigitsLackDash(da);
    SuffixSplit(i);
    assert InstanceSuffix(a) + InstanceSuffix(i) == [] + ['-'] + (da + ['-'] + di);
    SplitAfter([], '-', da + ['-'] + di);
    SplitAfter(da, '-', di);
    SplitNone(di, '-');
  }

  lemma DigitsLackDash(s: string)
    requires AllDigits(s)
    ensures Lacks(s, '-')
  {
  }

  // ---------------------------------------------------------------------------
  // The agent prompt

  const CriteriaHeader: string := "\n\nVerification criteria:\n"

  /** One criterion as a bullet line, without its line break. */
  function BulletLine(c: string): string { "- " + c }

  function Bullet(c: string): string { BulletLine(c) + "\n" }

  function Bullets(criteria: seq<string>): string
  {
    Concat(seq(|criteria|, i requires 0 <= i < |criteria| => Bullet(criteria[i])))
  }

  /** The prompt given to the agent: the task prompt, then, if there are any, the criteria as bullets. */
  function AgentPrompt(t: Task): string
  {
    if |t.criteria| == 0 then t.prompt else t.prompt + CriteriaHeader + Bullets(t.criteria)
  }

  /** The loop that assembles the prompt builds exactly `AgentPrompt`. */
  method BuildPrompt(t: Task) returns (prompt: string)
    ensures prompt == AgentPrompt(t)
    ensures |t.criteria| == 0 <==> prompt == t.prompt
  {
    prompt := t.prompt;
    if |t.criteria| > 0 {
      prompt := prompt + CriteriaHeader;
      var i := 0;
      while i < |t.criteria|
        invariant 0 <= i <= |t.criteria|
        invariant prompt == t.prompt + CriteriaHeader + Bullets(t.criteria[..i])
      {
        BulletsSnoc(t.criteria, i);
        prompt := prompt + Bullet(t.criteria[i]);
        i := i + 1;
      }
      assert t.criteria[..i] == t.criteria;
      assert |prompt| > |t.prompt|;
    }
  }

  lemma BulletsSnoc(criteria: seq<string>, i: int)
    requires 0 <= i < |criteria|
    ensures Bullets(criteria[..i + 1]) == Bullets(criteria[..i]) + Bullet(criteria[i])
  {
    var blocks := seq(i, k requires 0 <= k < i => Bullet(criteria[k]));
    assert seq(i + 1, k requires 0 <= k < i + 1 => Bullet(criteria[..i + 1][k])) == blocks + [Bullet(criteria[i])];
    assert seq(i, k requires 0 <= k < i => Bullet(criteria[..i][k])) == blocks;
    ConcatSnoc(blocks, Bullet(criteria[i]));
  }

  /** The bullet lines of the criteria, in order. */
  function BulletLines(criteria: seq<string>): seq<string>
  {
    seq(|criteria|, i requires 0 <= i < |criteria| => BulletLine(criteria[i]))
  }

  /**
   * The bullet block reads back as one line per criterion, in order, when no criterion holds
   * a line break: splitting it at line breaks gives the bullet lines and a final empty part.
   */
  lemma {:induction false} BulletsSplit(criteria: seq<string>)
    requires forall i :: 0 <= i < |criteria| ==> Lacks(criteria[i], '\n')
    ensures Split(Bullets(criteria), '\n') == BulletLines(criteria) + [""]
    decreases |criteria|
  {
    if |criteria| == 0 {
      SplitNone("", '\n');
    } else {
      var rest := criteria[1..];
      assert forall i :: 0 <= i < |rest| ==> rest[i] == criteria[i + 1];
      BulletsCons(criteria);
      BulletsSplit(rest);
      BulletLineLacks(criteria[0]);
      SplitAfter(BulletLine(criteria[0]), '\n', Bullets(rest));
      BulletLinesCons(criteria);
      AppendAssoc([BulletLine(criteria[0])], BulletLines(rest), [""]);
    }
  }

  lemma BulletLineLacks(c: string)
    requires Lacks(c, '\n')
    ensures Lacks(BulletLine(c), '\n')
  {
  }

  lemma BulletLinesCons(criteria: seq<string>)
    requires |criteria| > 0
    ensures BulletLines(criteria) == [BulletLine(criteria[0])] + BulletLines(criteria[1..])
  {
  }

  lemma BulletsCons(criteria: seq<string>)
    requires |criteria| > 0
    ensures Bullets(criteria) == BulletLine(criteria[0]) + ['\n'] + Bullets(criteria[1..])
  {
    var blocks := seq(|criteria|, i requires 0 <= i < |criteria| => Bullet(criteria[i]));
    assert blocks[1..] == seq(|criteria| - 1, i requires 0 <= i < |criteria| - 1 => Bullet(criteria[1..][i]));
  }

  // ---------------------------------------------------------------------------
  // Running one unit against an oracle

  /** Why `git worktree add` failed: the error and the command's combined output. */
  datatype AddFailure = AddFailure(err: string, output: string)

  /** The environment's answers for one unit. */
  datatype Env = Env(pathExists: bool, addFailure: Option<AddFailure>, startFailure: Option<string>)

  /** The external commands a unit issues, in order. */
  datatype Command =
    | WorktreeAdd(branch: string, path: string, base: Option<string>)
    | StartAgent(dir: string, prompt: string)

  datatype Outcome = AlreadyExists | CreateFailed(failure: AddFailure) | StartFailed(err: string) | Started

  /** What a unit did and the line it reports. */
  datatype Report = Report(commands: seq<Command>, outcome: Outcome, message: string)

  /** The bracketed instance id every report line starts with. */
  function Tag(u: Unit): string { "[" + InstanceName(u) + "]" }

  /** The report line for an outcome, as the unit formats it. */
  function Message(worktreesDir: string, u: Unit, outcome: Outcome): (r: string)
    ensures |r| >= |Tag(u)| && r[..|Tag(u)|] == Tag(u)
  {
    var path := WorktreePath(worktreesDir, u);
    Tag(u) + match outcome
      case AlreadyExists => " Worktree already exists at " + path
      case CreateFailed(f) => " Error creating worktree: " + f.err + "\n" + f.output
      case StartFailed(err) => " Error starting claude: " + err
      case Started =>
        " Started implementation in " + path + " (branch: " + BranchName(u) + ", base: " + BaseInfo(u) + ")"
  }

  /**
   * implementTaskWithSuffix: an existing worktree is skipped without any command; otherwise
   * the worktree is added on a new branch (from the base branch, or HEAD), and only if that
   * succeeds is the agent started in it with the assembled prompt.
   */
  function RunUnit(worktreesDir: string, u: Unit, env: Env): (r: Report)
    ensures r.outcome == AlreadyExists <==> env.pathExists
    ensures r.outcome.AlreadyExists? ==> r.commands == []
    ensures !env.pathExists ==>
      |r.commands| >= 1 && r.commands[0] == WorktreeAdd(BranchName(u), WorktreePath(worktreesDir, u), BaseBranch(u))
    ensures r.outcome.CreateFailed? <==> !env.pathExists && env.addFailure.Some?
    ensures r.outcome.CreateFailed? ==> |r.commands| == 1 && r.outcome.failure == env.addFailure.value
    ensures r.outcome.StartFailed? <==> !env.pathExists && env.addFailure.None? && env.startFailure.Some?
    ensures r.outcome.StartFailed? ==> r.outcome.err == env.startFailure.value
    ensures r.outcome.Started? <==> !env.pathExists && env.addFailure.None? && env.startFailure.None?
    ensures r.outcome.StartFailed? || r.outcome.Started? ==>
      |r.commands| == 2 && r.commands[1] == StartAgent(WorktreePath(worktreesDir, u), AgentPrompt(u.task))
    ensures r.message == Message(worktreesDir, u, r.outcome)
  {
    var path := WorktreePath(worktreesDir, u);
    var add := WorktreeAdd(BranchName(u), path, BaseBranch(u));
    var start := StartAgent(path, AgentPrompt(u.task));
    var (commands, outcome) :=
      if env.pathExists then ([], AlreadyExists)
      else if env.addFailure.Some? then ([add], CreateFailed(env.addFailure.value))
      else if env.startFailure.Some? then ([add, start], StartFailed(env.startFailure.value))
      else ([add, start], Started);
    Report(commands, outcome, Message(worktreesDir, u, outcome))
  }

  /**
   * The fan-out over every unit of the plan, one after another in place of the goroutines.
   * Each unit's report is a function of that unit and of the answers given to it. In the tool
   * those answers are not independent: a dependent unit's `git worktree add` names its parent
   * unit's branch, which exists only once the parent unit's goroutine has created it, and
   * nothing orders the goroutines. The answers here are free parameters and do not capture that.
   */
  method RunUnits(worktreesDir: string, units: seq<Unit>, envs: seq<Env>) returns (reports: seq<Report>)
    requires |envs| == |units|
    ensures |reports| == |units|
    ensures forall k :: 0 <= k < |units| ==> reports[k] == RunUnit(worktreesDir, units[k], envs[k])
    ensures forall k :: 0 <= k < |units| ==>
      |reports[k].message| >= |Tag(units[k])| && reports[k].message[..|Tag(units[k])|] == Tag(units[k])
  {
    reports := [];
    var k := 0;
    while k < |units|
      invariant 0 <= k <= |units| && |reports| == k
      invariant forall j :: 0 <= j < k ==> reports[j] == RunUnit(worktreesDir, units[j], envs[j])
    {
      reports := reports + [RunUnit(worktreesDir, units[k], envs[k])];
      k := k + 1;
    }
  }

  /** Running `implement` again over worktrees that all exist issues no command at all. */
  lemma RerunIssuesNothing(worktreesDir: string, u: Unit, env: Env)
    requires env.pathExists
    ensures RunUnit(worktreesDir, u, env).commands == []
    ensures RunUnit(worktreesDir, u, env).message ==
      Tag(u) + " Worktree already exists at " + WorktreePath(worktreesDir, u)
  {
  }
}

=== FILE: lineinput.dfy ===
/**
 * Line-oriented reading of standard input, as bufio.Reader.ReadString('\n') delivers it.
 * The input is the complete unread text; end of input is the only read error.
 */
module LineInput {
  import opened Seqs
  import opened Text

  /** One ReadString('\n'): the bytes up to and including the first newline, or everything with an EOF error. */
  datatype Read = Read(data: string, eof: bool, rest: string)

  function ReadString(s: string): (r: Read)
    ensures r.data + r.rest == s
    ensures r.eof <==> Lacks(s, '\n')
    ensures r.eof ==> r.rest == []
    ensures !r.eof ==> |r.data| > 0 && r.data[|r.data| - 1] == '\n'
    ensures forall i :: 0 <= i < |r.data| - 1 ==> r.data[i] != '\n'
  {
    var k := IndexOf(s, '\n');
    if k < 0 then Read(s, true, [])
    else
      IndexOfSplits(s, '\n', k);
      LineThenNewline(s[..k]);
      Read(s[..k] + ['\n'], false, s[k + 1..])
  }

  /** A line free of newlines, then one: only the last byte is a newline. */
  lemma LineThenNewline(line: string)
    requires Lacks(line, '\n')
    ensures forall i :: 0 <= i < |line + ['\n']| - 1 ==> (line + ['\n'])[i] != '\n'
  {
    assert forall i :: 0 <= i < |line| ==> (line + ['\n'])[i] == line[i];
  }

  /** ReadString on input whose first newline is at `k`. */
  lemma ReadStringAt(s: string, k: int)
    requires 0 <= k < |s| && IndexOf(s, '\n') == k
    ensures ReadString(s) == Read(s[..k] + ['\n'], false, s[k + 1..])
  {
  }

  /** The bytes a line ends with that get trimmed, as a cut set: any run of CR and LF. */
  const LineEnd: set<char> := {'\r', '\n'}

  /** A collected line: non-empty, no newline inside, no CR or LF at the end. */
  predicate IsCollectedLine(line: string) {
    |line| > 0 && Lacks(line, '\n') && line[|line| - 1] !in LineEnd
  }

  /**
   * The loop of readMultilineInput (and of the criteria prompt): read lines until a read
   * error or a line that is empty once trailing CR/LF bytes are cut. Returns the collected
   * lines and the input left unread.
   */
  function CollectLines(s: string): (r: (seq<string>, string))
    ensures forall i :: 0 <= i < |r.0| ==> IsCollectedLine(r.0[i])
    decreases |s|
  {
    var rd := ReadString(s);
    if rd.eof then ([], rd.rest)
    else
      var line := TrimRight(rd.data, LineEnd);
      if line == "" then ([], rd.rest)
      else
        var more := CollectLines(rd.rest);
        TrimmedLineCollected(rd.data, line);
        ConsCollected(line, more.0);
        ([line] + more.0, more.1)
  }

  lemma TrimmedLineCollected(data: string, line: string)
    requires forall i :: 0 <= i < |data| - 1 ==> data[i] != '\n'
    requires |data| > 0 && data[|data| - 1] == '\n'
    requires line == TrimRight(data, LineEnd) && line != ""
    ensures IsCollectedLine(line)
  {
    assert |line| < |data|;
    assert forall i :: 0 <= i < |line| ==> line[i] == data[i];
  }

  lemma ConsCollected(line: string, more: seq<string>)
    requires IsCollectedLine(line)
    requires forall i :: 0 <= i < |more| ==> IsCollectedLine(more[i])
    ensures forall i :: 0 <= i < |more| + 1 ==> IsCollectedLine(([line] + more)[i])
  {
    assert forall i :: 1 <= i < |more| + 1 ==> ([line] + more)[i] == more[i - 1];
  }

  /** One step of `CollectLines` that stops, spelled out for the loop proof. */
  lemma CollectStops(s: string, rd: Read)
    requires rd == ReadString(s)
    requires rd.eof || TrimRight(rd.data, LineEnd) == ""
    ensures CollectLines(s) == ([], rd.rest)
  {
  }

  /** One step of `CollectLines` that keeps a line, spelled out for the loop proof. */
  lemma CollectKeeps(s: string, rd: Read, line: string)
    requires rd == ReadString(s) && !rd.eof
    requires line == TrimRight(rd.data, LineEnd) && line != ""
    ensures CollectLines(s) == ([line] + CollectLines(rd.rest).0, CollectLines(rd.rest).1)
  {
  }

  /** A collected line followed by a newline is kept, and reading goes on after it. */
  lemma CollectLineThen(line: string, rest: string)
    requires IsCollectedLine(line)
    ensures CollectLines(line + ['\n'] + rest) == ([line] + CollectLines(rest).0, CollectLines(rest).1)
  {
    var s := line + ['\n'] + rest;
    IndexOfAfter(line, '\n', rest);
    var rd := ReadString(s);
    assert rd.data == line + ['\n'] && rd.rest == rest;
    TrimRightDropsLineEnd(line, '\n');
    CollectKeeps(s, rd, line);
  }

  /** An empty line stops the collection; reading resumes right after it. */
  lemma CollectBlankStops(rest: string)
    ensures CollectLines(['\n'] + rest) == ([], rest)
  {
    var s := ['\n'] + rest;
    assert s == [] + ['\n'] + rest;
    IndexOfAfter([], '\n', rest);
    var rd := ReadString(s);
    assert rd.data == ['\n'] && rd.rest == rest;
    CollectStops(s, rd);
  }

  /** Input without any newline yields no line and is consumed entirely. */
  lemma CollectFragmentStops(fragment: string)
    requires Lacks(fragment, '\n')
    ensures CollectLines(fragment) == ([], [])
  {
    CollectStops(fragment, ReadString(fragment));
  }

  /** readMultilineInput: the collected lines joined by newlines, and the input left unread. */
  function MultilineInput(s: string): (string, string)
  {
    (Join(CollectLines(s).0, "\n"), CollectLines(s).1)
  }

  /**
   * The loop exactly as the Go code runs it: one ReadString per iteration, break on error,
   * trim, break on an empty line, otherwise append.
   */
  method ReadMultilineInput(input: string) returns (text: string, rest: string)
    ensures text == Join(CollectLines(input).0, "\n")
    ensures rest == CollectLines(input).1
  {
    var lines: seq<string> := [];
    var cur := input;
    while true
      invariant lines + CollectLines(cur).0 == CollectLines(input).0
      invariant CollectLines(cur).1 == CollectLines(input).1
      decreases |cur|
    {
      var rd := ReadString(cur);
      if rd.eof {
        CollectStops(cur, rd);
        AppendEmpty(lines);
        cur := rd.rest;
        break;
      }
      var line := TrimRight(rd.data, LineEnd);
      if line == "" {
        CollectStops(cur, rd);
        AppendEmpty(lines);
        cur := rd.rest;
        break;
      }
      var tail := CollectLines(rd.rest);
      CollectKeeps(cur, rd, line);
      AppendAssoc(lines, [line], tail.0);
      lines := lines + [line];
      cur := rd.rest;
    }
    text := Join(lines, "\n");
    rest := cur;
  }

  // ---------------------------------------------------------------------------
  // An independent description: records, trimming, and the leading non-empty run

  /** The newline-terminated records of `s`, without their newlines; an unterminated tail is not a record. */
  function Records(s: string): seq<string>
    decreases |s|
  {
    var k := IndexOf(s, '\n');
    if k < 0 then [] else [s[..k]] + Records(s[k + 1..])
  }

  /** Each record with trailing CR/LF bytes cut. */
  function TrimAll(records: seq<string>): (r: seq<string>)
    ensures |r| == |records|
    ensures forall i :: 0 <= i < |r| ==> r[i] == TrimRight(records[i], LineEnd)
  {
    seq(|records|, i requires 0 <= i < |records| => TrimRight(records[i], LineEnd))
  }

  /** The longest prefix of `lines` with no empty line. */
  function TakeNonEmpty(lines: seq<string>): (r: seq<string>)
    ensures |r| <= |lines| && r == lines[..|r|]
    ensures forall i :: 0 <= i < |r| ==> r[i] != ""
    ensures |r| < |lines| ==> lines[|r|] == ""
    decreases |lines|
  {
    if |lines| == 0 || lines[0] == "" then []
    else [lines[0]] + TakeNonEmpty(lines[1..])
  }

  lemma TakeNonEmptyCons(line: string, lines: seq<string>)
    ensures TakeNonEmpty([line] + lines) == if line == "" then [] else [line] + TakeNonEmpty(lines)
  {
    assert ([line] + lines)[1..] == lines;
  }

  lemma TrimRightDropsLineEnd(x: string, c: char)
    requires c in LineEnd
    ensures TrimRight(x + [c], LineEnd) == TrimRight(x, LineEnd)
  {
    assert (x + [c])[..|x|] == x;
  }

  /**
   * The collected lines are the leading run of non-empty records after trimming: a blank
   * record stops the loop, and the unterminated tail never contributes.
   */
  lemma {:induction false} CollectLinesIsLeadingRun(s: string)
    ensures CollectLines(s).0 == TakeNonEmpty(TrimAll(Records(s)))
    decreases |s|
  {
    var k := IndexOf(s, '\n');
    if k >= 0 {
      var rest := s[k + 1..];
      var line := TrimRight(s[..k], LineEnd);
      StepCollect(s, k);
      StepRecords(s, k);
      CollectLinesIsLeadingRun(rest);
      TakeNonEmptyCons(line, TrimAll(Records(rest)));
    }
  }

  /** One iteration of the collecting loop, when the input holds a newline at `k`. */
  lemma StepCollect(s: string, k: int)
    requires 0 <= k < |s| && IndexOf(s, '\n') == k
    ensures var line := TrimRight(s[..k], LineEnd);
      CollectLines(s).0 == (if line == "" then [] else [line] + CollectLines(s[k + 1..]).0)
  {
    var rd := ReadString(s);
    ReadStringAt(s, k);
    TrimRightDropsLineEnd(s[..k], '\n');
    var line := TrimRight(s[..k], LineEnd);
    if line == "" {
      CollectStops(s, rd);
    } else {
      CollectKeeps(s, rd, line);
    }
  }

  /** The records of input holding a newline at `k`, trimmed. */
  lemma StepRecords(s: string, k: int)
    requires 0 <= k < |s| && IndexOf(s, '\n') == k
    ensures TrimAll(Records(s)) == [TrimRight(s[..k], LineEnd)] + TrimAll(Records(s[k + 1..]))
  {
    RecordsUnfold(s, k);
    TrimAllCons(s[..k], Records(s[k + 1..]));
  }

  lemma TrimAllCons(head: string, tail: seq<string>)
    ensures TrimAll([head] + tail) == [TrimRight(head, LineEnd)] + TrimAll(tail)
  {
    var recs := [head] + tail;
    var a := TrimAll(recs);
    var b := [TrimRight(head, LineEnd)] + TrimAll(tail);
    forall i | 0 <= i < |a| ensures a[i] == b[i] {
      if i > 0 {
        assert recs[i] == tail[i - 1];
      }
    }
  }

  lemma RecordsUnfold(s: string, k: int)
    requires 0 <= k < |s| && IndexOf(s, '\n') == k
    ensures Records(s) == [s[..k]] + Records(s[k + 1..])
  {
  }

  lemma AppendSlices(s: string, f: string, k: int)
    requires 0 <= k < |s|
    ensures (s + f)[..k] == s[..k]
    ensures (s + f)[k + 1..] == s[k + 1..] + f
  {
  }

  /** Text after the last newline does not change the records. */
  lemma {:induction false} RecordsIgnoreFragment(s: string, fragment: string)
    requires |s| == 0 || s[|s| - 1] == '\n'
    requires Lacks(fragment, '\n')
    ensures Records(s + fragment) == Records(s)
    decreases |s|
  {
    if |s| > 0 {
      var k := IndexOf(s, '\n');
      var t := s + fragment;
      IndexOfPrefix(s, fragment, '\n');
      RecordsUnfold(s, k);
      RecordsUnfold(t, k);
      AppendSlices(s, fragment, k);
      RecordsIgnoreFragment(s[k + 1..], fragment);
    } else {
      assert s + fragment == fragment;
      assert IndexOf(fragment, '\n') < 0;
    }
  }

  /** A final fragment without a newline is discarded: appending it changes nothing that is collected. */
  lemma FragmentDiscarded(s: string, fragment: string)
    requires |s| == 0 || s[|s| - 1] == '\n'
    requires Lacks(fragment, '\n')
    ensures CollectLines(s + fragment).0 == CollectLines(s).0
  {
    CollectLinesIsLeadingRun(s + fragment);
    CollectLinesIsLeadingRun(s);
    RecordsIgnoreFragment(s, fragment);
  }

  /** The collected lines can be recovered from the joined text; nothing collected means empty text. */
  lemma MultilineInputSplits(s: string)
    ensures MultilineInput(s).0 == "" <==> CollectLines(s).0 == []
    ensures CollectLines(s).0 != [] ==> Split(MultilineInput(s).0, '\n') == CollectLines(s).0
  {
    var lines := CollectLines(s).0;
    if lines != [] {
      SplitJoin(lines, '\n');
      if |lines| > 1 {
        assert |Join(lines, "\n")| >= |lines[0]| + 1;
      }
    }
  }
}

=== FILE: planner.dfy ===
/**
 * The planning half of the `implement` command: which worktrees to create for the pending
 * tasks, each one a `Unit` of work started on its own. Independent tasks get `n` instances
 * started from HEAD; each dependent task gets `n` instances on top of each instance of its
 * parent, `n * n` in all.
 */
module Planner {
  import opened Text
  import opened Tasks
  import opened Seqs

  /** One worktree to create: the task, the instance its branch starts from ("" for HEAD), and its suffix. */
  datatype Unit = Unit(task: Task, baseBranchID: string, suffix: string)

  /** The `-n` flag after its correction: anything below one means one instance. */
  function Clamp(n: int): (r: nat)
    ensures r >= 1 && r >= n
    ensures r == 1 || r == n
  {
    if n < 1 then 1 else n
  }

  /** The suffix of the `i`-th instance (counting from one), as `fmt.Sprintf("-%d", i)` prints it. */
  function InstanceSuffix(i: nat): (r: string)
    ensures |r| >= 2 && r[0] == '-' && r[1..] == Decimal(i)
  {
    "-" + Decimal(i)
  }

  /** Instance suffixes name their instance uniquely. */
  lemma InstanceSuffixInjective(i: nat, j: nat)
    ensures InstanceSuffix(i) == InstanceSuffix(j) <==> i == j
  {
    if InstanceSuffix(i) == InstanceSuffix(j) {
      DecimalInjective(i, j);
    }
  }

  /** The suffixes `-1 .. -n`, in order. */
  function Suffixes(n: nat): (r: seq<string>)
    ensures |r| == n
    ensures forall i :: 0 <= i < n ==> r[i] == InstanceSuffix(i + 1)
  {
    seq(n, i requires 0 <= i < n => InstanceSuffix(i + 1))
  }

  /** The loop that fills the suffix slice, for a recorded task or for the fallback. */
  method BuildSuffixes(n: nat) returns (r: seq<string>)
    ensures r == Suffixes(n)
  {
    r := [];
    var i := 0;
    while i < n
      invariant 0 <= i <= n
      invariant r == Suffixes(i)
    {
      r := r + [InstanceSuffix(i + 1)];
      i := i + 1;
    }
  }

  /**
   * The `independentBranches` map once every independent task has been started: each of
   * their ids is mapped to the suffixes of its instances.
   */
  function Recorded(indep: seq<Task>, n: nat): (m: map<string, seq<string>>)
    ensures forall id :: id in m <==> exists j :: 0 <= j < |indep| && indep[j].id == id
    ensures forall id :: id in m ==> m[id] == Suffixes(n)
    decreases |indep|
  {
    if |indep| == 0 then map[]
    else
      var init := indep[..|indep| - 1];
      assert forall j :: 0 <= j < |init| ==> init[j] == indep[j];
      Recorded(init, n)[indep[|indep| - 1].id := Suffixes(n)]
  }

  /** The parent suffixes a dependent task uses: the recorded ones, or `-1 .. -n` when there are none. */
  function ParentSuffixes(m: map<string, seq<string>>, parent: string, n: nat): seq<string>
  {
    if parent in m then m[parent] else Suffixes(n)
  }

  /**
   * The fallback is indistinguishable from a recorded parent: whatever the parent is, a
   * dependent task branches from the suffixes `-1 .. -n`.
   */
  lemma FallbackMatchesRecorded(indep: seq<Task>, parent: string, n: nat)
    ensures ParentSuffixes(Recorded(indep, n), parent, n) == Suffixes(n)
  {
  }

  // ---------------------------------------------------------------------------
  // The plan, block by block, in the order the loops start the units

  /** The `n` units of one independent task. */
  function IndependentBlock(t: Task, n: nat): seq<Unit>
  {
    seq(n, i requires 0 <= i < n => Unit(t, "", InstanceSuffix(i + 1)))
  }

  /** The `n` units of a dependent task on top of one parent instance `ds`. */
  function ChildRow(t: Task, ds: string, n: nat): seq<Unit>
  {
    seq(n, i requires 0 <= i < n => Unit(t, t.dependsOn + ds, ds + InstanceSuffix(i + 1)))
  }

  /** All units of one dependent task: a row per parent suffix. */
  function DependentBlock(t: Task, dss: seq<string>, n: nat): seq<Unit>
  {
    Concat(seq(|dss|, j requires 0 <= j < |dss| => ChildRow(t, dss[j], n)))
  }

  function IndependentUnits(indep: seq<Task>, n: nat): seq<Unit>
  {
    Concat(seq(|indep|, j requires 0 <= j < |indep| => IndependentBlock(indep[j], n)))
  }

  function DependentUnits(dep: seq<Task>, m: map<string, seq<string>>, n: nat): seq<Unit>
  {
    Concat(seq(|dep|, j requires 0 <= j < |dep| => DependentBlock(dep[j], ParentSuffixes(m, dep[j].dependsOn, n), n)))
  }

  function PendingTasks(tasks: seq<Task>): seq<Task> { Filter(tasks, IsPending) }

  function IndependentTasks(tasks: seq<Task>): seq<Task> { Filter(PendingTasks(tasks), IsIndependent) }

  function DependentTasks(tasks: seq<Task>): seq<Task> { Filter(PendingTasks(tasks), IsDependent) }

  /**
   * runImplement's plan: the units of the independent tasks, then those of the dependent
   * ones. Empty when there are no tasks or none is pending, where the command stops early.
   */
  function Plan(tasks: seq<Task>, numInstances: int): seq<Unit>
  {
    var n := Clamp(numInstances);
    var indep := IndependentTasks(tasks);
    IndependentUnits(indep, n) + DependentUnits(DependentTasks(tasks), Recorded(indep, n), n)
  }

  // ---------------------------------------------------------------------------
  // The shape of the plan: unit `i` of block `j` sits at `j * n + i`

  lemma IndependentBlocksUniform(indep: seq<Task>, n: nat)
    ensures var blocks := seq(|indep|, j requires 0 <= j < |indep| => IndependentBlock(indep[j], n));
      forall b :: 0 <= b < |blocks| ==> |blocks[b]| == n
  {
  }

  /** Instance `i + 1` of independent task `j` is unit `j * n + i`, branched from HEAD. */
  lemma IndependentUnitAt(indep: seq<Task>, n: nat, j: int, i: int)
    requires 0 <= j < |indep| && 0 <= i < n
    ensures 0 <= j * n + i < |IndependentUnits(indep, n)|
    ensures IndependentUnits(indep, n)[j * n + i] == Unit(indep[j], "", InstanceSuffix(i + 1))
  {
    var blocks := seq(|indep|, j requires 0 <= j < |indep| => IndependentBlock(indep[j], n));
    IndependentBlocksUniform(indep, n);
    ConcatBlockAt(blocks, n, j, i);
  }

  /** Every independent unit is one of those. */
  lemma IndependentUnitOf(indep: seq<Task>, n: nat, k: int) returns (j: int, i: int)
    requires 0 <= k < |IndependentUnits(indep, n)|
    ensures 0 <= j < |indep| && 0 <= i < n && k == j * n + i
    ensures IndependentUnits(indep, n)[k] == Unit(indep[j], "", InstanceSuffix(i + 1))
  {
    var blocks := seq(|indep|, j requires 0 <= j < |indep| => IndependentBlock(indep[j], n));
    IndependentBlocksUniform(indep, n);
    j, i := ConcatBlockOf(blocks, n, k);
  }

  lemma IndependentUnitsLength(indep: seq<Task>, n: nat)
    ensures |IndependentUnits(indep, n)| == |indep| * n
  {
    IndependentBlocksUniform(indep, n);
    ConcatUniformLength(seq(|indep|, j requires 0 <= j < |indep| => IndependentBlock(indep[j], n)), n);
  }

  lemma ChildRowsUniform(t: Task, dss: seq<string>, n: nat)
    ensures var rows := seq(|dss|, j requires 0 <= j < |dss| => ChildRow(t, dss[j], n));
      forall b :: 0 <= b < |rows| ==> |rows[b]| == n
  {
  }

  /** Child instance `i + 1` on parent suffix `a` of a dependent task is its unit `a * n + i`. */
  lemma DependentBlockAt(t: Task, dss: seq<string>, n: nat, a: int, i: int)
    requires 0 <= a < |dss| && 0 <= i < n
    ensures 0 <= a * n + i < |DependentBlock(t, dss, n)|
    ensures DependentBlock(t, dss, n)[a * n + i] == Unit(t, t.dependsOn + dss[a], dss[a] + InstanceSuffix(i + 1))
  {
    var rows := seq(|dss|, j requires 0 <= j < |dss| => ChildRow(t, dss[j], n));
    ChildRowsUniform(t, dss, n);
    ConcatBlockAt(rows, n, a, i);
  }

  lemma DependentBlockOf(t: Task, dss: seq<string>, n: nat, k: int) returns (a: int, i: int)
    requires 0 <= k < |DependentBlock(t, dss, n)|
    ensures 0 <= a < |dss| && 0 <= i < n && k == a * n + i
    ensures DependentBlock(t, dss, n)[k] == Unit(t, t.dependsOn + dss[a], dss[a] + InstanceSuffix(i + 1))
  {
    var rows := seq(|dss|, j requires 0 <= j < |dss| => ChildRow(t, dss[j], n));
    ChildRowsUniform(t, dss, n);
    a, i := ConcatBlockOf(rows, n, k);
  }

  lemma DependentBlockLength(t: Task, dss: seq<string>, n: nat)
    ensures |DependentBlock(t, dss, n)| == |dss| * n
  {
    ChildRowsUniform(t, dss, n);
    ConcatUniformLength(seq(|dss|, j requires 0 <= j < |dss| => ChildRow(t, dss[j], n)), n);
  }

  /** The parent suffixes every dependent task uses, whatever the map holds. */
  ghost predicate RecordsSuffixes(m: map<string, seq<string>>, n: nat) {
    forall id :: id in m ==> m[id] == Suffixes(n)
  }

  lemma DependentBlocksUniform(dep: seq<Task>, m: map<string, seq<string>>, n: nat)
    requires RecordsSuffixes(m, n)
    ensures var blocks := seq(|dep|, j requires 0 <= j < |dep| => DependentBlock(dep[j], ParentSuffixes(m, dep[j].dependsOn, n), n));
      forall b :: 0 <= b < |blocks| ==> |blocks[b]| == n * n
  {
    forall b | 0 <= b < |dep| ensures |DependentBlock(dep[b], Suffixes(n), n)| == n * n {
      DependentBlockLength(dep[b], Suffixes(n), n);
    }
  }

  lemma RowInSquare(a: int, i: int, n: nat)
    requires 0 <= a < n && 0 <= i < n
    ensures 0 <= a * n + i < n * n
  {
    MulSucc(a, n);
    assert a + 1 <= n;
    MulMonotone(a + 1, n, n);
  }

  lemma MulMonotone(a: nat, b: nat, n: nat)
    requires a <= b
    ensures a * n <= b * n
  {
  }

  /**
   * Child instance `i + 1` of dependent task `j`, on top of parent instance `a + 1`, is unit
   * `j * n * n + a * n + i`: it branches from the parent's instance and extends its suffix.
   */
  lemma DependentUnitAt(dep: seq<Task>, m: map<string, seq<string>>, n: nat, j: int, a: int, i: int) returns (k: int)
    requires RecordsSuffixes(m, n)
    requires 0 <= j < |dep| && 0 <= a < n && 0 <= i < n
    ensures k == j * (n * n) + (a * n + i)
    ensures 0 <= k < |DependentUnits(dep, m, n)|
    ensures DependentUnits(dep, m, n)[k] ==
      Unit(dep[j], dep[j].dependsOn + InstanceSuffix(a + 1), InstanceSuffix(a + 1) + InstanceSuffix(i + 1))
  {
    var blocks := seq(|dep|, j requires 0 <= j < |dep| => DependentBlock(dep[j], ParentSuffixes(m, dep[j].dependsOn, n), n));
    DependentBlocksUniform(dep, m, n);
    RowInSquare(a, i, n);
    ConcatBlockAt(blocks, n * n, j, a * n + i);
    DependentBlockAt(dep[j], Suffixes(n), n, a, i);
    k := j * (n * n) + (a * n + i);
  }

  lemma DependentUnitOf(dep: seq<Task>, m: map<string, seq<string>>, n: nat, k: int) returns (j: int, a: int, i: int)
    requires RecordsSuffixes(m, n)
    requires 0 <= k < |DependentUnits(dep, m, n)|
    ensures 0 <= j < |dep| && 0 <= a < n && 0 <= i < n && k == j * (n * n) + (a * n + i)
    ensures DependentUnits(dep, m, n)[k] ==
      Unit(dep[j], dep[j].dependsOn + InstanceSuffix(a + 1), InstanceSuffix(a + 1) + InstanceSuffix(i + 1))
  {
    var r;
    j, r := DependentBlockIndex(dep, m, n, k);
    a, i := DependentBlockOf(dep[j], Suffixes(n), n, r);
  }

  /** Which dependent task's block, and which position in it, unit `k` comes from. */
  lemma DependentBlockIndex(dep: seq<Task>, m: map<string, seq<string>>, n: nat, k: int) returns (j: int, r: int)
    requires RecordsSuffixes(m, n)
    requires 0 <= k < |DependentUnits(dep, m, n)|
    ensures 0 <= j < |dep| && 0 <= r < |DependentBlock(dep[j], Suffixes(n), n)| && k == j * (n * n) + r
    ensures DependentUnits(dep, m, n)[k] == DependentBlock(dep[j], Suffixes(n), n)[r]
  {
    var blocks := seq(|dep|, j requires 0 <= j < |dep| => DependentBlock(dep[j], ParentSuffixes(m, dep[j].dependsOn, n), n));
    DependentBlocksUniform(dep, m, n);
    j, r := ConcatBlockOf(blocks, n * n, k);
    assert blocks[j] == DependentBlock(dep[j], Suffixes(n), n);
  }

  lemma DependentUnitsLength(dep: seq<Task>, m: map<string, seq<string>>, n: nat)
    requires RecordsSuffixes(m, n)
    ensures |DependentUnits(dep, m, n)| == |dep| * (n * n)
  {
    DependentBlocksUniform(dep, m, n);
    ConcatUniformLength(seq(|dep|, j requires 0 <= j < |dep| => DependentBlock(dep[j], ParentSuffixes(m, dep[j].dependsOn, n), n)), n * n);
  }

  // ---------------------------------------------------------------------------
  // The whole plan

  /**
   * The totals the command announces: `n` worktrees per pending independent task and `n * n`
   * per pending dependent one; every pending task is one or the other.
   */
  lemma PlanLength(tasks: seq<Task>, numInstances: int)
    ensures |Plan(tasks, numInstances)| ==
      |IndependentTasks(tasks)| * Clamp(numInstances) + |DependentTasks(tasks)| * (Clamp(numInstances) * Clamp(numInstances))
    ensures |IndependentTasks(tasks)| + |DependentTasks(tasks)| == |PendingTasks(tasks)|
  {
    var n := Clamp(numInstances);
    IndependentUnitsLength(IndependentTasks(tasks), n);
    DependentUnitsLength(DependentTasks(tasks), Recorded(IndependentTasks(tasks), n), n);
    FilterPartition(PendingTasks(tasks), IsIndependent, IsDependent);
  }

  /** With `n` already at least one, the plan is the independent units followed by the dependent ones. */
  lemma PlanSplit(tasks: seq<Task>, n: nat)
    requires n >= 1
    ensures Plan(tasks, n) ==
      IndependentUnits(IndependentTasks(tasks), n) + DependentUnits(DependentTasks(tasks), Recorded(IndependentTasks(tasks), n), n)
  {
  }

  /** The plan starts with the independent units, task by task, instances `-1 .. -n` in order. */
  lemma PlanIndependentAt(tasks: seq<Task>, n: nat, j: int, i: int) returns (k: int)
    requires n >= 1 && 0 <= j < |IndependentTasks(tasks)| && 0 <= i < n
    ensures k == j * n + i
    ensures 0 <= k < |Plan(tasks, n)| && Plan(tasks, n)[k] == Unit(IndependentTasks(tasks)[j], "", InstanceSuffix(i + 1))
  {
    var indep := IndependentTasks(tasks);
    var iu := IndependentUnits(indep, n);
    var du := DependentUnits(DependentTasks(tasks), Recorded(indep, n), n);
    IndependentUnitAt(indep, n, j, i);
    k := j * n + i;
    PlanSplit(tasks, n);
    AppendLeft(iu, du, k);
  }

  /**
   * Then come the dependent units, task by task, parent instance by parent instance, child
   * instance by child instance.
   */
  lemma PlanDependentAt(tasks: seq<Task>, n: nat, j: int, a: int, i: int) returns (k: int)
    requires n >= 1 && 0 <= j < |DependentTasks(tasks)| && 0 <= a < n && 0 <= i < n
    ensures k == |IndependentTasks(tasks)| * n + j * (n * n) + (a * n + i)
    ensures 0 <= k < |Plan(tasks, n)|
    ensures var t := DependentTasks(tasks)[j];
      Plan(tasks, n)[k] == Unit(t, t.dependsOn + InstanceSuffix(a + 1), InstanceSuffix(a + 1) + InstanceSuffix(i + 1))
  {
    var indep := IndependentTasks(tasks);
    var dep := DependentTasks(tasks);
    var m := Recorded(indep, n);
    var d := DependentUnitAt(dep, m, n, j, a, i);
    PlanDependentPart(tasks, n, d);
    IndependentUnitsLength(indep, n);
    var t := dep[j];
    k := ShiftedAt(Plan(tasks, n), DependentUnits(dep, m, n), |IndependentUnits(indep, n)|, d, |indep| * n,
      j * (n * n) + (a * n + i), Unit(t, t.dependsOn + InstanceSuffix(a + 1), InstanceSuffix(a + 1) + InstanceSuffix(i + 1)));
  }

  /**
   * Element `d` of a part that the plan holds from offset `x` on is element `x + d` of the plan.
   * `x'` and `d'` are the same offsets written as the caller's closed forms; taking them as
   * separate parameters keeps the nonlinear closed forms out of the indexing step.
   */
  lemma ShiftedAt(plan: seq<Unit>, part: seq<Unit>, x: int, d: int, x': int, d': int, u: Unit) returns (k: int)
    requires 0 <= d < |part| && 0 <= x + d < |plan| && plan[x + d] == part[d]
    requires part[d] == u && x == x' && d == d'
    ensures k == x' + d' && 0 <= k < |plan| && plan[k] == u
  {
    k := x + d;
  }

  /** Dependent unit `d` sits in the plan after all the independent units. */
  lemma PlanDependentPart(tasks: seq<Task>, n: nat, d: int)
    requires n >= 1
    requires 0 <= d < |DependentUnits(DependentTasks(tasks), Recorded(IndependentTasks(tasks), n), n)|
    ensures var p := |IndependentUnits(IndependentTasks(tasks), n)| + d;
      && 0 <= p < |Plan(tasks, n)|
      && Plan(tasks, n)[p] == DependentUnits(DependentTasks(tasks), Recorded(IndependentTasks(tasks), n), n)[d]
  {
    var indep := IndependentTasks(tasks);
    var iu := IndependentUnits(indep, n);
    var du := DependentUnits(DependentTasks(tasks), Recorded(indep, n), n);
    PlanSplit(tasks, n);
    AppendRight(iu, du, d);
  }

  /**
   * The units the command starts, described without the loops: a pending task of the list,
   * and either an independent one with suffix `-i` from HEAD, or a dependent one with suffix
   * `-a-i` branched from its parent's instance `-a`, for `a` and `i` in `1 .. n`.
   */
  ghost predicate Planned(tasks: seq<Task>, n: nat, u: Unit) {
    && u.task in tasks
    && IsPending(u.task)
    && if IsIndependent(u.task) then IndependentInstance(u, n) else DependentInstance(u, n)
  }

  /** Instance `-i` of its task, started from HEAD. */
  ghost predicate IndependentInstance(u: Unit, n: nat) {
    u.baseBranchID == "" && exists i :: 1 <= i <= n && u.suffix == InstanceSuffix(i)
  }

  /** Instance `-a-i` of its task, started from instance `-a` of its parent. */
  ghost predicate DependentInstance(u: Unit, n: nat) {
    exists a, i :: 1 <= a <= n && 1 <= i <= n && u.baseBranchID == u.task.dependsOn + InstanceSuffix(a)
      && u.suffix == InstanceSuffix(a) + InstanceSuffix(i)
  }

  lemma PendingMember(tasks: seq<Task>, t: Task)
    ensures t in IndependentTasks(tasks) <==> t in tasks && IsPending(t) && IsIndependent(t)
    ensures t in DependentTasks(tasks) <==> t in tasks && IsPending(t) && IsDependent(t)
  {
    var pending := PendingTasks(tasks);
    if t in tasks && IsPending(t) {
      var k :| 0 <= k < |tasks| && tasks[k] == t;
      assert t in pending;
      var k' :| 0 <= k' < |pending| && pending[k'] == t;
    }
    if t in IndependentTasks(tasks) {
      var k :| 0 <= k < |IndependentTasks(tasks)| && IndependentTasks(tasks)[k] == t;
    }
    if t in DependentTasks(tasks) {
      var k :| 0 <= k < |DependentTasks(tasks)| && DependentTasks(tasks)[k] == t;
    }
  }

  /** Every unit of the plan is a planned unit. */
  lemma PlanSound(tasks: seq<Task>, numInstances: int, k: int)
    requires 0 <= k < |Plan(tasks, numInstances)|
    ensures Planned(tasks, Clamp(numInstances), Plan(tasks, numInstances)[k])
  {
    var n := Clamp(numInstances);
    var indep := IndependentTasks(tasks);
    var u := Plan(tasks, numInstances)[k];
    var iu := IndependentUnits(indep, n);
    if k < |iu| {
      var j, i := IndependentUnitOf(indep, n, k);
      assert u == iu[k];
      PendingMember(tasks, indep[j]);
      assert u.suffix == InstanceSuffix(i + 1);
    } else {
      var dep := DependentTasks(tasks);
      var m := Recorded(indep, n);
      var j, a, i := DependentUnitOf(dep, m, n, k - |iu|);
      assert u == DependentUnits(dep, m, n)[k - |iu|];
      PendingMember(tasks, dep[j]);
      assert u.baseBranchID == u.task.dependsOn + InstanceSuffix(a + 1);
      assert u.suffix == InstanceSuffix(a + 1) + InstanceSuffix(i + 1);
    }
  }

  /** Every planned unit is in the plan. */
  lemma PlanComplete(tasks: seq<Task>, numInstances: int, u: Unit)
    requires Planned(tasks, Clamp(numInstances), u)
    ensures u in Plan(tasks, numInstances)
  {
    var n := Clamp(numInstances);
    var indep := IndependentTasks(tasks);
    var iu := IndependentUnits(indep, n);
    var du := DependentUnits(DependentTasks(tasks), Recorded(indep, n), n);
    assert Plan(tasks, numInstances) == iu + du;
    PendingMember(tasks, u.task);
    if IsIndependent(u.task) {
      IndependentComplete(indep, n, u);
    } else {
      DependentComplete(DependentTasks(tasks), Recorded(indep, n), n, u);
    }
  }

  lemma IndependentComplete(indep: seq<Task>, n: nat, u: Unit)
    requires u.task in indep && IndependentInstance(u, n)
    ensures u in IndependentUnits(indep, n)
  {
    var i :| 1 <= i <= n && u.suffix == InstanceSuffix(i);
    var j :| 0 <= j < |indep| && indep[j] == u.task;
    var i0 := i - 1;
    IndependentUnitAt(indep, n, j, i0);
    assert IndependentUnits(indep, n)[j * n + i0] == u;
  }

  lemma DependentComplete(dep: seq<Task>, m: map<string, seq<string>>, n: nat, u: Unit)
    requires RecordsSuffixes(m, n) && u.task in dep && DependentInstance(u, n)
    ensures u in DependentUnits(dep, m, n)
  {
    var a, i :| 1 <= a <= n && 1 <= i <= n
      && u.baseBranchID == u.task.dependsOn + InstanceSuffix(a)
      && u.suffix == InstanceSuffix(a) + InstanceSuffix(i);
    var j :| 0 <= j < |dep| && dep[j] == u.task;
    var k := DependentUnitAt(dep, m, n, j, a - 1, i - 1);
    assert DependentUnits(dep, m, n)[k] == u;
  }

  /** The plan holds exactly the planned units. */
  lemma PlanMembers(tasks: seq<Task>, numInstances: int, u: Unit)
    ensures u in Plan(tasks, numInstances) <==> Planned(tasks, Clamp(numInstances), u)
  {
    if u in Plan(tasks, numInstances) {
      var k :| 0 <= k < |Plan(tasks, numInstances)| && Plan(tasks, numInstances)[k] == u;
      PlanSound(tasks, numInstances, k);
    }
    if Planned(tasks, Clamp(numInstances), u) {
      PlanComplete(tasks, numInstances, u);
    }
  }
}

=== FILE: seqs.dfy ===
/** Generic sequence helpers: filtering and concatenating blocks of equal length. */
module Seqs {

  /** The elements of `s` that satisfy `p`, in their original order (Go's append-in-a-loop filter). */
  function Filter<T>(s: seq<T>, p: T -> bool): (r: seq<T>)
    ensures |r| <= |s|
    ensures forall i :: 0 <= i < |r| ==> p(r[i])
    ensures forall i :: 0 <= i < |r| ==> r[i] in s
    ensures forall i :: 0 <= i < |s| && p(s[i]) ==> s[i] in r
    decreases |s|
  {
    if |s| == 0 then []
    else (if p(s[0]) then [s[0]] else []) + Filter(s[1..], p)
  }

  /** Concatenation is associative (stated once, for the proofs that regroup a concatenation). */
  lemma AppendAssoc<T>(a: seq<T>, b: seq<T>, c: seq<T>)
    ensures a + (b + c) == (a + b) + c
  {
  }

  lemma AppendEmpty<T>(a: seq<T>)
    ensures a + [] == a
  {
  }

  /** Filtering distributes over concatenation, so it keeps relative order. */
  lemma {:induction false} FilterAppend<T>(a: seq<T>, b: seq<T>, p: T -> bool)
    ensures Filter(a + b, p) == Filter(a, p) + Filter(b, p)
    decreases |a|
  {
    if |a| == 0 {
      assert a + b == b;
    } else {
      assert (a + b)[0] == a[0];
      assert (a + b)[1..] == a[1..] + b;
      FilterAppend(a[1..], b, p);
    }
  }

  /** No element occurs at two positions of `s`. */
  ghost predicate Distinct<T>(s: seq<T>) {
    forall i, j :: 0 <= i < j < |s| ==> s[i] != s[j]
  }

  /** Filtering a sequence without repeats leaves one without repeats. */
  lemma {:induction false} FilterDistinct<T>(s: seq<T>, p: T -> bool)
    requires Distinct(s)
    ensures Distinct(Filter(s, p))
    decreases |s|
  {
    if |s| > 0 {
      var rest := Filter(s[1..], p);
      FilterDistinct(s[1..], p);
      assert s[0] !in s[1..];
      assert s[0] !in rest;
    }
  }

  /** Filtering by `p` and by its negation splits `s` without loss. */
  lemma {:induction false} FilterPartition<T>(s: seq<T>, p: T -> bool, q: T -> bool)
    requires forall x :: q(x) == !p(x)
    ensures |Filter(s, p)| + |Filter(s, q)| == |s|
    decreases |s|
  {
    if |s| > 0 {
      FilterPartition(s[1..], p, q);
    }
  }

  /** The blocks of `blocks` laid end to end. */
  function Concat<T>(blocks: seq<seq<T>>): seq<T>
    decreases |blocks|
  {
    if |blocks| == 0 then [] else blocks[0] + Concat(blocks[1..])
  }

  /** Appending a block at the end appends its elements at the end. */
  lemma {:induction false} ConcatSnoc<T>(blocks: seq<seq<T>>, b: seq<T>)
    ensures Concat(blocks + [b]) == Concat(blocks) + b
    decreases |blocks|
  {
    if |blocks| == 0 {
      assert blocks + [b] == [b];
      assert [b][1..] == [];
    } else {
      assert (blocks + [b])[0] == blocks[0];
      assert (blocks + [b])[1..] == blocks[1..] + [b];
      ConcatSnoc(blocks[1..], b);
    }
  }

  /** When every block has length `L`, the concatenation has `|blocks| * L` elements. */
  lemma {:induction false} ConcatUniformLength<T>(blocks: seq<seq<T>>, L: nat)
    requires forall j :: 0 <= j < |blocks| ==> |blocks[j]| == L
    ensures |Concat(blocks)| == |blocks| * L
    decreases |blocks|
  {
    if |blocks| > 0 {
      ConcatUniformLength(blocks[1..], L);
      MulSucc(|blocks| - 1, L);
    }
  }

  /** When every block has length `L`, element `i` of block `j` sits at position `j * L + i` of the concatenation. */
  lemma {:induction false} ConcatBlockAt<T>(blocks: seq<seq<T>>, L: nat, j: int, i: int)
    requires forall b :: 0 <= b < |blocks| ==> |blocks[b]| == L
    requires 0 <= j < |blocks| && 0 <= i < L
    ensures 0 <= j * L + i < |Concat(blocks)|
    ensures Concat(blocks)[j * L + i] == blocks[j][i]
    decreases j
  {
    if j > 0 {
      var rest := blocks[1..];
      assert forall b :: 0 <= b < |rest| ==> rest[b] == blocks[b + 1];
      ConcatBlockAt(rest, L, j - 1, i);
      MulSucc(j - 1, L);
      ConcatIndexPastFirst(blocks, j * L + i);
    }
  }

  /** Conversely, every position of the concatenation is `j * L + i` for some block `j` and offset `i < L`. */
  lemma {:induction false} ConcatBlockOf<T>(blocks: seq<seq<T>>, L: nat, k: int) returns (j: int, i: int)
    requires forall b :: 0 <= b < |blocks| ==> |blocks[b]| == L
    requires 0 <= k < |Concat(blocks)|
    ensures 0 <= j < |blocks| && 0 <= i < L && k == j * L + i
    ensures Concat(blocks)[k] == blocks[j][i]
    decreases |blocks|
  {
    if k < |blocks[0]| {
      j, i := 0, k;
    } else {
      var rest := blocks[1..];
      assert forall b :: 0 <= b < |rest| ==> rest[b] == blocks[b + 1];
      ConcatIndexPastFirst(blocks, k);
      var j', i' := ConcatBlockOf(rest, L, k - L);
      j, i := j' + 1, i';
      MulSucc(j', L);
    }
  }

  lemma MulSucc(a: nat, L: nat)
    ensures (a + 1) * L == L + a * L
  {
  }

  lemma ConcatIndexPastFirst<T>(blocks: seq<seq<T>>, k: int)
    requires |blocks| > 0 && |blocks[0]| <= k < |Concat(blocks)|
    ensures Concat(blocks)[k] == Concat(blocks[1..])[k - |blocks[0]|]
  {
  }

  lemma AppendLeft<T>(x: seq<T>, y: seq<T>, k: int)
    requires 0 <= k < |x|
    ensures (x + y)[k] == x[k]
  {
  }

  lemma AppendRight<T>(x: seq<T>, y: seq<T>, d: int)
    requires 0 <= d < |y|
    ensures |x| + d < |x + y| && (x + y)[|x| + d] == y[d]
  {
  }
}

=== FILE: status.dfy ===
/**
 * The `status` command: one row per worktree directory, classified from what git and the
 * process table report about it. Those reports are given as a `Probe` per directory.
 */
module Status {
  import opened Wrappers
  import opened Text

  /** What the external probes answered for one worktree; `None` is a failed command. */
  datatype Probe = Probe(
    porcelain: Option<string>,
    revCount: Option<string>,
    branch: Option<string>,
    agentRunning: bool)

  datatype State = Idle | Running | Modified | Committed

  /** `git status --porcelain` succeeded and printed something besides white space. */
  function HasChanges(porcelain: Option<string>): (r: bool)
    ensures r <==> porcelain.Some? && !IsBlank(porcelain.value)
  {
    porcelain.Some? && |TrimSpace(porcelain.value)| > 0
  }

  /**
   * A probe's output as shown: trimmed when the command succeeded, `fallback` when it failed
   * ("0" for the commit count, "unknown" for the branch).
   */
  function TrimmedOr(out: Option<string>, fallback: string): (r: string)
    ensures out.None? ==> r == fallback
    ensures out.Some? ==> r == TrimSpace(out.value) && |r| <= |out.value| && (|r| == 0 <==> IsBlank(out.value))
  {
    if out.Some? then TrimSpace(out.value) else fallback
  }

  /** The state shown, by fixed priority: running, then modified, then committed, else idle. */
  function Classify(running: bool, changes: bool, ahead: string): (s: State)
    ensures s == Running <==> running
    ensures s == Modified <==> !running && changes
    ensures s == Committed <==> !running && !changes && ahead != "0"
    ensures s == Idle <==> !running && !changes && ahead == "0"
  {
    if running then Running
    else if changes then Modified
    else if ahead != "0" then Committed
    else Idle
  }

  /** Whether the row suggests `autom8 accept`. */
  function AcceptHint(running: bool, changes: bool, ahead: string): bool
  {
    !running && (ahead != "0" || changes)
  }

  /** The hint is shown exactly for the worktrees classified as modified or committed. */
  lemma AcceptHintIffFinished(running: bool, changes: bool, ahead: string)
    ensures AcceptHint(running, changes, ahead) <==> Classify(running, changes, ahead) in {Modified, Committed}
  {
  }

  /**
   * rev-list's count `k`, printed with its newline, is shown as its digits, which read "0"
   * exactly when nothing is ahead. So a clean worktree with no agent running is idle with
   * no hint exactly when `k` is zero, and committed with a hint exactly when it is not.
   */
  lemma CountClassifies(name: string, branch: Option<string>, k: nat)
    ensures TrimmedOr(Some(Decimal(k) + "\n"), "0") == Decimal(k)
    ensures Decimal(k) == "0" <==> k == 0
    ensures var r := StatusRow(name, Probe(Some(""), Some(Decimal(k) + "\n"), branch, false));
      && r.commitsAhead == Decimal(k)
      && (r.state == Idle <==> k == 0)
      && (r.state == Committed <==> k > 0)
      && (r.acceptHint <==> k > 0)
  {
    var d := Decimal(k);
    assert IsDigit(d[0]) && IsDigit(d[|d| - 1]);
    TrimSpaceTrailing(d, "\n");
    assert Decimal(0) == "0";
    DecimalInjective(k, 0);
  }

  datatype Row = Row(name: string, state: State, branch: string, commitsAhead: string, hasChanges: bool, acceptHint: bool)

  /** One worktree's row. */
  function StatusRow(name: string, p: Probe): (r: Row)
    ensures r.name == name
    ensures r.hasChanges <==> p.porcelain.Some? && !IsBlank(p.porcelain.value)
    ensures r.state == Running <==> p.agentRunning
    ensures r.acceptHint <==> r.state == Modified || r.state == Committed
    ensures r.commitsAhead == TrimmedOr(p.revCount, "0") && r.branch == TrimmedOr(p.branch, "unknown")
    ensures r.state == Classify(p.agentRunning, r.hasChanges, r.commitsAhead)
  {
    var changes := HasChanges(p.porcelain);
    var ahead := TrimmedOr(p.revCount, "0");
    AcceptHintIffFinished(p.agentRunning, changes, ahead);
    Row(name, Classify(p.agentRunning, changes, ahead), TrimmedOr(p.branch, "unknown"), ahead, changes, AcceptHint(p.agentRunning, changes, ahead))
  }

  /** An entry of the worktrees directory. */
  datatype Entry = Entry(name: string, isDir: bool)

  /** The rows for the directory entries, in directory order; other entries are skipped. */
  function Rows(entries: seq<Entry>, probes: seq<Probe>): (r: seq<Row>)
    requires |probes| == |entries|
    ensures |r| <= |entries|
    ensures forall k :: 0 <= k < |r| ==> MadeFromDir(r[k], entries, probes)
    ensures forall i :: 0 <= i < |entries| && entries[i].isDir ==> StatusRow(entries[i].name, probes[i]) in r
    decreases |entries|
  {
    if |entries| == 0 then []
    else
      var rest := Rows(entries[1..], probes[1..]);
      RowsOfTail(entries, probes, entries[1..], probes[1..], rest);
      (if entries[0].isDir then [StatusRow(entries[0].name, probes[0])] else []) + rest
  }

  /** A row made from an entry of the tail is made from an entry of the whole list. */
  lemma RowsOfTail(entries: seq<Entry>, probes: seq<Probe>, tailEntries: seq<Entry>, tailProbes: seq<Probe>, rest: seq<Row>)
    requires |probes| == |entries| > 0 && tailEntries == entries[1..] && tailProbes == probes[1..]
    requires forall k :: 0 <= k < |rest| ==> MadeFromDir(rest[k], tailEntries, tailProbes)
    ensures forall k :: 0 <= k < |rest| ==> MadeFromDir(rest[k], entries, probes)
  {
    forall k | 0 <= k < |rest| ensures MadeFromDir(rest[k], entries, probes) {
      var i :| 0 <= i < |tailEntries| && |tailProbes| == |tailEntries| && tailEntries[i].isDir
        && rest[k] == StatusRow(tailEntries[i].name, tailProbes[i]);
      assert entries[i + 1] == tailEntries[i] && probes[i + 1] == tailProbes[i];
    }
  }

  /** `row` is the row of some directory entry. */
  ghost predicate MadeFromDir(row: Row, entries: seq<Entry>, probes: seq<Probe>) {
    exists i :: 0 <= i < |entries| && |probes| == |entries| && entries[i].isDir && row == StatusRow(entries[i].name, probes[i])
  }

  /** The listing as the source prints it: the header counts every entry, directories or not. */
  function DirCount(entries: seq<Entry>): nat
    decreases |entries|
  {
    if |entries| == 0 then 0 else (if entries[0].isDir then 1 else 0) + DirCount(entries[1..])
  }

  lemma {:induction false} RowsCount(entries: seq<Entry>, probes: seq<Probe>)
    requires |probes| == |entries|
    ensures |Rows(entries, probes)| == DirCount(entries)
    decreases |entries|
  {
    if |entries| > 0 {
      RowsCount(entries[1..], probes[1..]);
    }
  }

  /** What `status` shows: nothing to list, a read error, or a header count and rows. */
  datatype View = NoWorktrees | ReadError | Listing(count: nat, rows: seq<Row>)

  /** The worktrees directory: missing, unreadable, or its entries. */
  datatype Dir = Missing | Unreadable | Entries(entries: seq<Entry>)

  /** runStatus as written: the header reports the number of entries, not of rows. */
  function StatusViewAsWritten(dir: Dir, probes: seq<Probe>): (v: View)
    requires dir.Entries? ==> |probes| == |dir.entries|
    ensures v.NoWorktrees? <==> dir.Missing? || (dir.Entries? && |dir.entries| == 0)
    ensures v.ReadError? <==> dir.Unreadable?
    ensures v.Listing? ==> v.count == |dir.entries| && v.rows == Rows(dir.entries, probes)
  {
    match dir
    case Missing => NoWorktrees
    case Unreadable => ReadError
    case Entries(entries) =>
      if |entries| == 0 then NoWorktrees else Listing(|entries|, Rows(entries, probes))
  }

  /** A stray file beside one worktree: the header announces two worktrees and lists one. */
  lemma StrayFileMiscounted(worktree: string, file: string, p: Probe, q: Probe)
    ensures var v := StatusViewAsWritten(Entries([Entry(worktree, true), Entry(file, false)]), [p, q]);
      v.Listing? && v.count == 2 && |v.rows| == 1
  {
    var entries := [Entry(worktree, true), Entry(file, false)];
    RowsCount(entries, [p, q]);
    assert entries[1..] == [Entry(file, false)];
    assert entries[1..][1..] == [];
  }

  /** runStatus with the header counting the worktrees it lists. */
  function StatusView(dir: Dir, probes: seq<Probe>): (v: View)
    requires dir.Entries? ==> |probes| == |dir.entries|
    ensures v.NoWorktrees? <==> dir.Missing? || (dir.Entries? && |dir.entries| == 0)
    ensures v.ReadError? <==> dir.Unreadable?
    ensures v.Listing? ==> v.count == |v.rows| && v.rows == Rows(dir.entries, probes)
  {
    match dir
    case Missing => NoWorktrees
    case Unreadable => ReadError
    case Entries(entries) =>
      if |entries| == 0 then NoWorktrees else Listing(|Rows(entries, probes)|, Rows(entries, probes))
  }

  /** The header counts exactly the directories among the entries; the two versions agree when every entry is one. */
  lemma StatusViewCountsDirectories(dir: Dir, probes: seq<Probe>)
    requires dir.Entries? && |probes| == |dir.entries| && |dir.entries| > 0
    ensures StatusView(dir, probes).count == DirCount(dir.entries)
    ensures (forall i :: 0 <= i < |dir.entries| ==> dir.entries[i].isDir) ==>
      StatusView(dir, probes) == StatusViewAsWritten(dir, probes)
  {
    RowsCount(dir.entries, probes);
    if forall i :: 0 <= i < |dir.entries| ==> dir.entries[i].isDir {
      AllDirsCount(dir.entries);
    }
  }

  lemma {:induction false} AllDirsCount(entries: seq<Entry>)
    requires forall i :: 0 <= i < |entries| ==> entries[i].isDir
    ensures DirCount(entries) == |entries|
    decreases |entries|
  {
    if |entries| > 0 {
      AllDirsCount(entries[1..]);
    }
  }
}

=== FILE: tasks.dfy ===
/**
 * The persisted task list: one `Task` record per feature request, kept in insertion order.
 * `dependsOn == ""` means the task has no parent (the JSON field is omitted).
 */
module Tasks {
  import opened Seqs
  import opened Text

  /** A task record. The creation time is left out; the id is an opaque string. */
  datatype Task = Task(
    id: string,
    prompt: string,
    criteria: seq<string>,
    dependsOn: string,
    status: string)

  /** The id the feature command gives a task created at the given nanosecond timestamp. */
  function TaskId(stamp: nat): string { "task-" + Decimal(stamp) }

  /** The only status value the tool itself writes and tests. */
  const Pending: string := "pending"

  predicate IsPending(t: Task) { t.status == Pending }

  predicate IsIndependent(t: Task) { t.dependsOn == "" }

  predicate IsDependent(t: Task) { t.dependsOn != "" }

  /** Some task in the list carries identifier `id`. */
  predicate HasId(tasks: seq<Task>, id: string) {
    exists i :: 0 <= i < |tasks| && tasks[i].id == id
  }

  /** Index of the first task with identifier `id`, or -1 (the search loop in runDelete). */
  function FindIndex(tasks: seq<Task>, id: string): (k: int)
    ensures -1 <= k < |tasks|
    ensures k >= 0 ==> tasks[k].id == id && forall j :: 0 <= j < k ==> tasks[j].id != id
    ensures k < 0 <==> !HasId(tasks, id)
    decreases |tasks|
  {
    if |tasks| == 0 then -1
    else if tasks[0].id == id then 0
    else
      var k := FindIndex(tasks[1..], id);
      assert k >= 0 ==> tasks[k + 1] == tasks[1..][k];
      assert forall j :: 1 <= j < |tasks| ==> tasks[j] == tasks[1..][j - 1];
      if k < 0 then -1 else k + 1
  }

  /** Identifiers of the tasks whose parent is `id`, in list order. */
  function Dependents(tasks: seq<Task>, id: string): (r: seq<string>)
    ensures |r| <= |tasks|
    ensures |r| == 0 <==> forall i :: 0 <= i < |tasks| ==> tasks[i].dependsOn != id
    ensures forall x :: x in r <==> exists i :: 0 <= i < |tasks| && tasks[i].dependsOn == id && tasks[i].id == x
    decreases |tasks|
  {
    if |tasks| == 0 then []
    else
      var rest := Dependents(tasks[1..], id);
      assert forall i :: 1 <= i < |tasks| ==> tasks[i] == tasks[1..][i - 1];
      (if tasks[0].dependsOn == id then [tasks[0].id] else []) + rest
  }

  /** Dependents of a concatenation: those of the first part, then those of the second. */
  lemma {:induction false} DependentsAppend(a: seq<Task>, b: seq<Task>, id: string)
    ensures Dependents(a + b, id) == Dependents(a, id) + Dependents(b, id)
    decreases |a|
  {
    if |a| == 0 {
      assert a + b == b;
    } else {
      ConsAppend(a, b);
      DependentsCons(a + b, id);
      DependentsCons(a, id);
      DependentsAppend(a[1..], b, id);
      var h := if a[0].dependsOn == id then [a[0].id] else [];
      AppendAssoc(h, Dependents(a[1..], id), Dependents(b, id));
    }
  }

  lemma DependentsCons(tasks: seq<Task>, id: string)
    requires |tasks| > 0
    ensures Dependents(tasks, id) ==
      (if tasks[0].dependsOn == id then [tasks[0].id] else []) + Dependents(tasks[1..], id)
  {
  }

  lemma ConsAppend(a: seq<Task>, b: seq<Task>)
    requires |a| > 0
    ensures (a + b)[0] == a[0] && (a + b)[1..] == a[1..] + b
  {
  }

  /** No two tasks share an identifier, and no identifier is empty. */
  ghost predicate UniqueIds(tasks: seq<Task>) {
    && (forall i :: 0 <= i < |tasks| ==> tasks[i].id != "")
    && (forall i, j :: 0 <= i < j < |tasks| ==> tasks[i].id != tasks[j].id)
  }

  /** Every parent reference names a task that comes earlier in the list (so there are no cycles). */
  ghost predicate ParentsEarlier(tasks: seq<Task>) {
    forall i :: 0 <= i < |tasks| && tasks[i].dependsOn != "" ==>
      exists j :: 0 <= j < i && tasks[j].id == tasks[i].dependsOn
  }

  /** The invariant the create and delete commands keep on the persisted list. */
  ghost predicate WellFormed(tasks: seq<Task>) {
    UniqueIds(tasks) && ParentsEarlier(tasks)
  }
}

=== FILE: text.dfy ===
/**
 * The handful of Go `strings` and `fmt` behaviours the tool relies on, over byte strings
 * (each `char` stands for one byte): decimal printing, cut-set trimming, whitespace
 * trimming, joining and splitting on a separator, and replacing one byte by another.
 */
module Text {

  // ---------------------------------------------------------------------------
  // Decimal numbers, as fmt's %d prints a non-negative integer

  predicate IsDigit(c: char) { '0' <= c <= '9' }

  predicate AllDigits(s: string) { forall i :: 0 <= i < |s| ==> IsDigit(s[i]) }

  function DigitChar(d: nat): (c: char)
    requires d < 10
    ensures IsDigit(c) && c as int - '0' as int == d
  {
    ('0' as int + d) as char
  }

  /** The decimal rendering of `n`: at least one digit, no leading zero. */
  function Decimal(n: nat): (r: string)
    ensures |r| > 0 && AllDigits(r)
    ensures n > 0 ==> r[0] != '0'
    decreases n
  {
    if n < 10 then [DigitChar(n)] else Decimal(n / 10) + [DigitChar(n % 10)]
  }

  /** The value of a string of decimal digits; the inverse of `Decimal`. */
  function ParseDecimal(s: string): nat
    requires AllDigits(s)
    decreases |s|
  {
    if |s| == 0 then 0
    else ParseDecimal(s[..|s| - 1]) * 10 + (s[|s| - 1] as int - '0' as int)
  }

  lemma {:induction false} DecimalRoundTrip(n: nat)
    ensures ParseDecimal(Decimal(n)) == n
    decreases n
  {
    if n >= 10 {
      var hi := Decimal(n / 10);
      var s := hi + [DigitChar(n % 10)];
      assert s[..|s| - 1] == hi;
      DecimalRoundTrip(n / 10);
    }
  }

  /** Distinct numbers print differently. */
  lemma DecimalInjective(a: nat, b: nat)
    ensures Decimal(a) == Decimal(b) <==> a == b
  {
    if Decimal(a) == Decimal(b) {
      DecimalRoundTrip(a);
      DecimalRoundTrip(b);
    }
  }

  // ---------------------------------------------------------------------------
  // Searching and trimming

  /** No byte of `s` is `c`. */
  predicate Lacks(s: string, c: char) { forall i :: 0 <= i < |s| ==> s[i] != c }

  /** Index of the first occurrence of `c` in `s`, or -1 (Go's strings.IndexByte). */
  function IndexOf(s: string, c: char): (k: int)
    ensures -1 <= k < |s|
    ensures k >= 0 ==> s[k] == c
    ensures forall i :: 0 <= i < |s| && (k < 0 || i < k) ==> s[i] != c
    decreases |s|
  {
    if |s| == 0 then -1
    else if s[0] == c then 0
    else
      var k := IndexOf(s[1..], c);
      if k < 0 then -1 else k + 1
  }

  /**
   * Go's strings.TrimRight(s, cutset): the longest prefix of `s` that does not end in a
   * byte of `cutset`. The cut set is a set of bytes, not a suffix string.
   */
  function TrimRight(s: string, cutset: set<char>): (r: string)
    ensures |r| <= |s| && r == s[..|r|]
    ensures |r| > 0 ==> r[|r| - 1] !in cutset
    ensures forall i :: |r| <= i < |s| ==> s[i] in cutset
    decreases |s|
  {
    if |s| > 0 && s[|s| - 1] in cutset then TrimRight(s[..|s| - 1], cutset) else s
  }

  /** The ASCII white space bytes Go's unicode.IsSpace accepts: tab, LF, VT, FF, CR and space. */
  const Whitespace: set<char> := {'\t', '\n', 11 as char, 12 as char, '\r', ' '}

  /** Every byte of `s` is white space (so `strings.TrimSpace(s) == ""`). */
  predicate IsBlank(s: string) { forall i :: 0 <= i < |s| ==> s[i] in Whitespace }

  /** The first index at or after `i` that does not hold white space, or `|s|`. */
  function SkipBlanks(s: string, i: nat): (j: nat)
    requires i <= |s|
    ensures i <= j <= |s|
    ensures forall k :: i <= k < j ==> s[k] in Whitespace
    ensures j < |s| ==> s[j] !in Whitespace
    decreases |s| - i
  {
    if i < |s| && s[i] in Whitespace then SkipBlanks(s, i + 1) else i
  }

  /** The end of `s[lo..j]` once the white space at its back is dropped. */
  function BackOverBlanks(s: string, lo: nat, j: nat): (k: nat)
    requires lo <= j <= |s|
    ensures lo <= k <= j
    ensures forall m :: k <= m < j ==> s[m] in Whitespace
    ensures k > lo ==> s[k - 1] !in Whitespace
    decreases j
  {
    if j > lo && s[j - 1] in Whitespace then BackOverBlanks(s, lo, j - 1) else j
  }

  /**
   * Go's strings.TrimSpace: `s` with the white space at both ends cut off, that is, the slice
   * of `s` whose ends are not white space and around which only white space stands.
   */
  function TrimSpace(s: string): (r: string)
    ensures |r| == 0 <==> IsBlank(s)
    ensures |r| > 0 ==> r[0] !in Whitespace && r[|r| - 1] !in Whitespace
    ensures |r| <= |s|
    ensures exists a :: 0 <= a <= a + |r| <= |s| && r == s[a..a + |r|] && IsBlank(s[..a]) && IsBlank(s[a + |r|..])
  {
    var a := SkipBlanks(s, 0);
    var b := BackOverBlanks(s, a, |s|);
    Trimmed(s, a, b);
    s[a..b]
  }

  /** The slice between the leading and the trailing white space has the properties of `TrimSpace`. */
  lemma {:induction false} Trimmed(s: string, a: nat, b: nat)
    requires a <= b <= |s|
    requires forall k :: 0 <= k < a ==> s[k] in Whitespace
    requires forall m :: b <= m < |s| ==> s[m] in Whitespace
    requires a < |s| ==> s[a] !in Whitespace
    requires b > a ==> s[b - 1] !in Whitespace
    ensures var r := s[a..b];
      && (|r| == 0 <==> IsBlank(s))
      && (|r| > 0 ==> r[0] !in Whitespace && r[|r| - 1] !in Whitespace)
      && |r| <= |s|
      && exists x :: 0 <= x <= x + |r| <= |s| && r == s[x..x + |r|] && IsBlank(s[..x]) && IsBlank(s[x + |r|..])
  {
    BlankAround(s, a, b);
    SliceBetweenBlanks(s, a, b);
  }

  lemma {:induction false} BlankAround(s: string, a: nat, b: nat)
    requires a <= b <= |s|
    requires forall k :: 0 <= k < a ==> s[k] in Whitespace
    requires forall m :: b <= m < |s| ==> s[m] in Whitespace
    requires a < |s| ==> s[a] !in Whitespace
    requires b > a ==> s[b - 1] !in Whitespace
    ensures IsBlank(s[..a]) && IsBlank(s[b..])
    ensures b == a <==> IsBlank(s)
  {
    var head := s[..a];
    forall k | 0 <= k < |head| ensures head[k] in Whitespace {
      assert head[k] == s[k];
    }
    var tail := s[b..];
    forall m | 0 <= m < |tail| ensures tail[m] in Whitespace {
      assert tail[m] == s[b + m];
    }
    if b == a {
      forall k | 0 <= k < |s| ensures s[k] in Whitespace {
      }
    }
  }

  lemma SliceBetweenBlanks(s: string, a: nat, b: nat)
    requires a <= b <= |s| && IsBlank(s[..a]) && IsBlank(s[b..])
    ensures var r := s[a..b];
      exists x :: 0 <= x <= x + |r| <= |s| && r == s[x..x + |r|] && IsBlank(s[..x]) && IsBlank(s[x + |r|..])
  {
    assert a + |s[a..b]| == b;
  }

  /** A string that is already trimmed is left alone. */
  lemma TrimSpaceTrimmed(s: string)
    requires |s| > 0 ==> s[0] !in Whitespace && s[|s| - 1] !in Whitespace
    ensures TrimSpace(s) == s
  {
  }

  /** Where in `s` its trimmed form starts. */
  lemma TrimSpaceStart(s: string) returns (a: nat)
    ensures a + |TrimSpace(s)| <= |s| && TrimSpace(s) == s[a..a + |TrimSpace(s)|]
  {
    a := SkipBlanks(s, 0);
    var b := BackOverBlanks(s, a, |s|);
    assert TrimSpace(s) == s[a..b];
  }

  /** A white-space character that can stand only at the very end of `s` is trimmed away. */
  lemma {:induction false} TrimSpaceDropsLast(s: string, c: char)
    requires c in Whitespace
    requires forall i :: 0 <= i < |s| - 1 ==> s[i] != c
    ensures Lacks(TrimSpace(s), c)
  {
    var a := TrimSpaceStart(s);
    var t := TrimSpace(s);
    forall i | 0 <= i < |t| ensures t[i] != c {
      assert t[i] == s[a + i];
    }
  }

  /** Trimming a string whose ends are not white space, followed by white space, gives the string back. */
  lemma TrimSpaceTrailing(s: string, w: string)
    requires |s| > 0 && s[0] !in Whitespace && s[|s| - 1] !in Whitespace && IsBlank(w)
    ensures TrimSpace(s + w) == s
  {
    var t := s + w;
    assert t[0] == s[0];
    var b := BackOverBlanks(t, 0, |t|);
    assert t[|s| - 1] == s[|s| - 1];
    assert t[0..b] == s;
  }

  // ---------------------------------------------------------------------------
  // Joining, splitting and replacing

  /** Go's strings.Join. */
  function Join(parts: seq<string>, sep: string): string
    decreases |parts|
  {
    if |parts| == 0 then ""
    else if |parts| == 1 then parts[0]
    else parts[0] + sep + Join(parts[1..], sep)
  }

  /** Go's strings.Split on a single byte: the pieces between separators, at least one. */
  function Split(s: string, sep: char): (r: seq<string>)
    ensures |r| > 0
    decreases |s|
  {
    var k := IndexOf(s, sep);
    if k < 0 then [s] else [s[..k]] + Split(s[k + 1..], sep)
  }

  /** No piece of a split contains the separator. */
  lemma {:induction false} SplitPartsLack(s: string, sep: char)
    ensures forall i :: 0 <= i < |Split(s, sep)| ==> Lacks(Split(s, sep)[i], sep)
    decreases |s|
  {
    var k := IndexOf(s, sep);
    if k >= 0 {
      SplitUnfold(s, sep, k);
      IndexOfSplits(s, sep, k);
      SplitPartsLack(s[k + 1..], sep);
      ConsLacking(s[..k], Split(s[k + 1..], sep), sep);
    }
  }

  /** The first occurrence of `c` cuts `s` into a part free of `c`, `c` itself, and the rest. */
  lemma IndexOfSplits(s: string, c: char, k: int)
    requires 0 <= k < |s| && k == IndexOf(s, c)
    ensures Lacks(s[..k], c)
    ensures s[..k + 1] == s[..k] + [c]
    ensures s[..k] + [c] + s[k + 1..] == s
  {
    assert forall i :: 0 <= i < k ==> s[..k][i] == s[i];
  }

  lemma ConsLacking(head: string, rest: seq<string>, c: char)
    requires Lacks(head, c)
    requires forall i :: 0 <= i < |rest| ==> Lacks(rest[i], c)
    ensures forall i :: 0 <= i < |rest| + 1 ==> Lacks(([head] + rest)[i], c)
  {
    assert forall i :: 1 <= i < |rest| + 1 ==> ([head] + rest)[i] == rest[i - 1];
  }

  lemma SplitUnfold(s: string, sep: char, k: int)
    requires 0 <= k < |s| && k == IndexOf(s, sep)
    ensures Split(s, sep) == [s[..k]] + Split(s[k + 1..], sep)
  {
  }

  /** A byte found in `s` is found at the same place in any extension of `s`. */
  lemma IndexOfPrefix(s: string, t: string, c: char)
    requires IndexOf(s, c) >= 0
    ensures IndexOf(s + t, c) == IndexOf(s, c)
  {
    var u := s + t;
    var k := IndexOf(s, c);
    assert u[k] == c;
    assert forall i :: 0 <= i < k ==> u[i] == s[i];
  }

  /** The first separator of `p + [sep] + rest` sits right after `p` when `p` has none. */
  lemma IndexOfAfter(p: string, sep: char, rest: string)
    requires Lacks(p, sep)
    ensures IndexOf(p + [sep] + rest, sep) == |p|
  {
    var s := p + [sep] + rest;
    assert s[|p|] == sep;
    assert s[..|p|] == p;
  }

  /** A part free of the separator, then the separator: the split starts with that part. */
  lemma SplitAfter(p: string, sep: char, rest: string)
    requires Lacks(p, sep)
    ensures Split(p + [sep] + rest, sep) == [p] + Split(rest, sep)
  {
    var s := p + [sep] + rest;
    IndexOfAfter(p, sep, rest);
    assert s[..|p|] == p;
    assert s[|p| + 1..] == rest;
  }

  /** A string without the separator splits into itself alone. */
  lemma SplitNone(s: string, sep: char)
    requires Lacks(s, sep)
    ensures Split(s, sep) == [s]
  {
  }

  /** Three separator-free parts joined by the separator split back into those parts. */
  lemma SplitThree(p: string, q: string, r: string, sep: char)
    requires Lacks(p, sep) && Lacks(q, sep) && Lacks(r, sep)
    ensures Split(p + [sep] + (q + [sep] + r), sep) == [p, q, r]
  {
    SplitAfter(q, sep, r);
    SplitNone(r, sep);
    SplitAfter(p, sep, q + [sep] + r);
  }

  /** The same for four parts. */
  lemma SplitFour(p: string, q: string, r: string, t: string, sep: char)
    requires Lacks(p, sep) && Lacks(q, sep) && Lacks(r, sep) && Lacks(t, sep)
    ensures Split(p + [sep] + (q + [sep] + (r + [sep] + t)), sep) == [p, q, r, t]
  {
    var rest := q + [sep] + (r + [sep] + t);
    SplitThree(q, r, t, sep);
    SplitAfter(p, sep, rest);
    ConsOfThree(Split(p + [sep] + rest, sep), p, Split(rest, sep), q, r, t);
  }

  lemma ConsOfThree(x: seq<string>, p: string, y: seq<string>, q: string, r: string, t: string)
    requires x == [p] + y && y == [q, r, t]
    ensures x == [p, q, r, t]
  {
  }

  /** Splitting a join recovers the parts when no part contains the separator. */
  lemma {:induction false} SplitJoin(parts: seq<string>, sep: char)
    requires |parts| > 0
    requires forall i :: 0 <= i < |parts| ==> Lacks(parts[i], sep)
    ensures Split(Join(parts, [sep]), sep) == parts
    decreases |parts|
  {
    if |parts| > 1 {
      SplitAfter(parts[0], sep, Join(parts[1..], [sep]));
      SplitJoin(parts[1..], sep);
      assert parts == [parts[0]] + parts[1..];
    }
  }

  lemma JoinCons(head: string, tail: seq<string>, sep: string)
    requires |tail| > 0
    ensures Join([head] + tail, sep) == head + sep + Join(tail, sep)
  {
    assert ([head] + tail)[1..] == tail;
  }

  /** Joining a split gives back the string. */
  lemma {:induction false} JoinSplit(s: string, sep: char)
    ensures Join(Split(s, sep), [sep]) == s
    decreases |s|
  {
    var k := IndexOf(s, sep);
    if k >= 0 {
      var rest := s[k + 1..];
      IndexOfSplits(s, sep, k);
      SplitUnfold(s, sep, k);
      JoinSplit(rest, sep);
      JoinCons(s[..k], Split(rest, sep), [sep]);
    }
  }

  /** Go's strings.ReplaceAll(s, [from], [to]) for single bytes: same length, every `from` becomes `to`. */
  function ReplaceByte(s: string, from: char, to: char): (r: string)
    ensures |r| == |s|
    ensures forall i :: 0 <= i < |s| ==> r[i] == (if s[i] == from then to else s[i])
  {
    seq(|s|, i requires 0 <= i < |s| => if s[i] == from then to else s[i])
  }
}

=== FILE: wrappers.dfy ===
/** Failure-compatible result types used across the model. */
module Wrappers {

  /** An optional value: a Go value that may be absent, or an outcome that may not exist. */
  datatype Option<+T> = None | Some(value: T)

  /** Either a value or the error that the Go code reports instead. */
  datatype Result<+R, +E> = Success(value: R) | Failure(error: E)
}
